=== FILE: README.md ===
# LSB steganography codec of stego-demo, in Dafny

This project models the codec in `stego/image.go`. The codec hides a byte
stream in the least significant bits of an image's channel bytes and reads it
back. It supports two layouts:

- `*image.RGBA`: R, G and B carry one bit each; the alpha byte (index ≡ 3 mod 4) is skipped.
- `*image.Gray`: every byte carries one bit.

The first 32 eligible bits hold the message length as a little-endian
`uint32` header. The payload follows from logical bit 32, eight bits per
byte, bit 0 first. The writer and reader are streams. Every `Write` accepts
as many bytes as the buffer passed and the capacity left allow. It embeds
them, and rewrites the header when it accepted at least one. It panics when
the capacity runs past the pixel buffer (the first Findings row). Every
`Read` on RGBA decodes as many bytes as the buffer passed and the length in
the header allow; readGray does not (the second Findings row).

Modules, one concept each:

- `Bits`: `uint32` wrap-around (`Sub32`, `Add32`, `ToU32`), header bits (`ShiftBit`, `BitByte`, `ToBits`, `FromBits`), the byte operations `pix&^1 | b` and `pix&1` (`WithLsb`, `Lsb`), and byte packing (`ByteBits`, `PackBits`, `PackByte`).
- `Layouts`: the eligible-byte map. `Raw(L)` is L + L/3 on RGBA and L on Gray; `Logical` is its inverse. Also here: the header's index lists, the reader's and writer's start index, and the unrolled `switch i&3` of readRGBA/writeRGBA (`Step`).
- `Header`: writeSize/readSize with their RGBA and Gray variants.
- `Payload`: the loops of writeRGBA/writeGray (`WriteLoop`), readRGBA (`ReadLoop`) and readGray as written (`ReadGrayLoop`). Beside them are the reference definitions `EmbedSpec` and `ExtractSpec`, which say bit by bit what a write puts where and what a read returns.
- `Stego`: the `Image` handle, `NewImage`, `Writer`, `Reader`, `imageWriter.Write` and `imageReader.Read`.
- `Stream`: what a run of Writes and Reads does. The invariants are `Holds` (a writer keeps the bytes written so far in the image and its length in the header) and `Reading`. `RoundTrip` ties them together.
- `Findings`: two defects in the code, each shown as written, with the corrected behaviour proved beside it.

Go panics become values of the `Results` module:

- an index out of range becomes `Err(IndexOutOfRange)`;
- `"color model not supported"` becomes `Err(UnsupportedLayout)`;
- `NewImage(nil)` becomes `Ok(None)`.

A call on the shared `*Image` takes the image as a value and returns the
image it leaves behind. `io.EOF` is a boolean.

## Model

| member | source | states |
|---|---|---|
| Bits.Sub32 | stego/image.go:433 | `entropy - stegosize` (and `stegosize - bytesread`) is `uint32` subtraction: the difference, or the difference plus 2^32 when it goes below zero |
| Bits.Add32 | stego/image.go:424 | `stegosize += uint32(n)` is `uint32` addition: the sum, or the sum minus 2^32 when it overflows |
| Bits.ToU32 | stego/image.go:325 | `uint32(len(buf))` keeps the low 32 bits: it is the length itself below 2^32, and otherwise the `uint32` congruent to it modulo 2^32, never above the length |
| Bits.BitByte | stego/image.go:128 | `uint8(n>>k&1)` is floor(n / 2^k) mod 2 |
| Bits.ShiftBitIsDiv | stego/image.go:128 | shifting right by k (k halvings) and taking bit 0 gives floor(n / 2^k) mod 2 |
| Bits.WithLsb | stego/image.go:447 | `p&^1 \| bit` has bit 0 equal to `bit` and the same upper seven bits as p, and is p itself when p's bit 0 already is `bit` |
| Bits.Lsb | stego/image.go:337 | `p & 1` is 0 or 1, and is 0 exactly when p is even |
| Bits.FromToBits | stego/image.go:213-255 | OR-ing the 32 header bits back at their shifts gives the number they were taken from |
| Bits.PackBitsBits | stego/image.go:337-344 | decoding eight LSBs that are bits 0..7 of b, in that order, gives b back |
| Bits.PackByteIsPackBits | stego/image.go:388-395 | readGray's eight-term OR chain equals the recursive packing readRGBA's decode is stated with |
| Layouts.RawIsEligible | stego/image.go:442-476 | logical bit L goes to raw index L + L/3 on RGBA, which is never an alpha byte (≡ 3 mod 4), maps back to L, and is not below L |
| Layouts.LogicalIsInverse | stego/image.go:442-476 | every eligible raw index is the image of its logical position |
| Layouts.RawIsIncreasing | stego/image.go:442-476 | later logical bits sit at strictly later raw indices |
| Layouts.RawInBuffer | stego/image.go:29-57 | in a buffer of 4 (RGBA) or 1 (Gray) bytes per pixel, logical bit L is inside the buffer exactly when L is below 3 (or 1) times the pixel count |
| Layouts.PayloadFits | stego/image.go:61 | c > 0 payload bytes fit after the header of a standard buffer exactly when 32 + 8c is at most the number of eligible bits |
| Layouts.UnrolledHeaderIndices | stego/image.go:126-170 | the indices writeSizeRGBA/readSizeRGBA name (0, 1, 2, 4, …, 41; and 0..31 in the Gray variants at 172-209) are the raw positions of logical bits 0..31 |
| Layouts.HeaderSpanIsRaw | stego/image.go:73-78 | the reader's and writer's start index, 42 on RGBA and 32 on Gray, is Raw(32), one past the header's last byte |
| Layouts.HeaderIndicesFit | stego/image.go:126-209 | the 32 header indices are Raw(0..31), all below the header span |
| Layouts.Step | stego/image.go:442-476 | each arm of `switch i&3` visits eight indices, none of them past the eighth (StepIsIncreasing adds that they increase from the normalised cursor) |
| Layouts.StepVisitsRaw | stego/image.go:442-476 | from a cursor at logical position p, the arm taken visits exactly Raw(p..p+7), and the cursor it leaves (i+10 or i+11) is Raw(p+8), or the alpha byte just before it, which the next stride's `case 3` skips |
| Layouts.StepIsIncreasing | stego/image.go:442-476 | each stride starts at the normalised cursor and ends before the next one |
| Header.WriteSize | stego/image.go:103-112 | writeSize succeeds exactly when the buffer covers the header span (42 or 32 bytes) and keeps the buffer's length |
| Header.HeaderFootprint | stego/image.go:126-209 | writeSize sets bit 0 of the byte of logical position k < 32 to bit k of n, and changes no other byte |
| Header.HeaderKeepsPayload | stego/image.go:126-209 | writeSize leaves every payload byte (logical position ≥ 32) untouched |
| Header.ReadSize | stego/image.go:114-124 | readSize succeeds exactly when the buffer covers the header span |
| Header.ReadSizeBits | stego/image.go:211-296 | bit k of the value readSize returns is the LSB of the byte at logical position k, for every k < 32 |
| Header.HeaderRoundTrip | stego/image.go:103-124 | readSize after writeSize(n) returns n, for every `uint32` n |
| Header.ReadSizeFrame | stego/image.go:211-296 | readSize depends only on the LSBs of the header span |
| Header.PutLsbsHigh | stego/image.go:128 | writing bit 0 of any bytes leaves the upper seven bits of every byte as they were |
| Payload.WriteLoop | stego/image.go:440-478 | the write loop keeps the buffer's length; what it writes is stated by WriteLoopMeetsSpec |
| Payload.WriteLoopOk | stego/image.go:440-477 | the write loop from logical position p fails (panics) exactly when the last bit of its data would land past the buffer |
| Payload.WriteLoopMeetsSpec | stego/image.go:440-477 | when it succeeds, the write loop's buffer is the reference embedding of the data at p |
| Payload.WriteLoopCursor | stego/image.go:478 | the cursor the write loop leaves normalises to Raw(p + 8·len(data)): it is that index, or the alpha byte just before it |
| Payload.ReadLoop | stego/image.go:330-372 | the read loop returns exactly the number of bytes asked for |
| Payload.ReadLoopOk | stego/image.go:330-371 | the read loop from p fails exactly when the bytes asked for run past the buffer |
| Payload.ReadLoopMeetsSpec | stego/image.go:330-371 | when they fit, the read loop returns the reference extraction at p |
| Payload.ReadLoopCursor | stego/image.go:372 | the cursor the read loop leaves normalises to Raw(p + 8·count): it is that index, or the alpha byte just before it |
| Payload.ExtractEmbed | stego/image.go:330-371 | extracting what was embedded at p gives the data back |
| Payload.ExtractSlice | stego/image.go:372-373 | reading count bytes in pieces gives consecutive slices of one read |
| Payload.ExtractAppend | stego/image.go:372-373 | the extraction of m + n bytes is that of m bytes followed by the next n |
| Payload.EmbedOutsideWindow | stego/image.go:440-476 | embedding at p leaves the eligible bytes outside the window p..p+8·len untouched |
| Payload.ReadGrayLoop | stego/image.go:387-399 | readGray's loop as written advances its cursor by eight per byte stored, stores each byte only inside the caller's buffer and the image, and ends with a bound `sz` no larger than its final loop counter j |
| Payload.GrayByteRoundTrip | stego/image.go:388-395 | readGray's per-byte decode inverts writeGray's per-byte encode at 494-501 |
| Payload.ReadGrayDecodes | stego/image.go:387-397 | the bytes readGray stores are the stream's next bytes, however early its loop stops |
| Stego.Entropy | stego/image.go:61 | the capacity `(pixels >> 3) * bpp` is floor((pixels − pixels mod 8) × bpp / 8) whenever pixels × bpp < 2^35: whole groups of eight pixels count and the rest do not. It never exceeds floor(pixels × bpp / 8) and equals it on multiples of eight |
| Stego.EntropyMatchesFloor | stego/image.go:61 | `(pixels >> 3) * bpp` equals floor(pixels × bpp / 8) exactly on Gray, and on RGBA when the pixel count mod 8 is 0, 1 or 2 |
| Stego.NewImage | stego/image.go:23-63 | nil gives nil; any type other than RGBA and Gray panics; RGBA and Gray always give a handle, on the pixel buffer, with stegosize 0 and that capacity |
| Stego.Writer | stego/image.go:83-97 | Writer() sets stegosize to 0, leaves the header and every byte alone, and starts the cursor at Raw(32) |
| Stego.Reader | stego/image.go:69-81 | Reader() panics on a buffer shorter than the header; otherwise it starts at Raw(32) with nothing read, and sets stegosize to the header's 32 bits, unchecked against the capacity |
| Stego.Clamp | stego/image.go:323-329 | the accepted count is the remaining count, or `uint32(len(buf))` exactly when that is smaller, so it is at most both, with EOF exactly when it was not cut |
| Stego.Write | stego/image.go:412-428 | Write returns the accepted count and EOF flag and keeps layout, capacity and buffer length. stegosize grows by n (`uint32`). With n = 0 nothing changes; with n > 0 the header then decodes to the new stegosize. With no capacity left it accepts 0 bytes with EOF |
| Stego.ReadStream | stego/image.go:320-375 | readRGBA returns the requested count and EOF flag, changes only the first n bytes of the buffer, and adds n to bytesread; with nothing left it returns 0 with EOF and changes nothing |
| Stego.ReadGray | stego/image.go:377-403 | readGray as written reports EOF as readRGBA does, keeps the buffer's length, and adds the count it returns to bytesread |
| Stego.Read | stego/image.go:306-318 | Read dispatches on the colour type; once the declared length is delivered it returns 0 with EOF and changes nothing |
| Stream.WriteMeetsSpec | stego/image.go:412-480 | a Write from logical position p fails exactly when the accepted bytes do not fit. Otherwise it moves the cursor past them, and the image becomes their reference embedding with the header rewritten to the new length |
| Stream.ReadMeetsSpec | stego/image.go:320-375 | a stream read from p fails exactly when the requested bytes do not fit; otherwise it returns their reference extraction and moves the cursor past them |
| Stream.WriteKeepsBound | stego/image.go:423-439 | Write keeps stegosize ≤ entropy and adds exactly the count it returns, without wrap-around |
| Stream.WriteFootprint | stego/image.go:412-480 | a Write changes only bit 0 of any byte, never an alpha byte, and past the header only the bytes of the window the accepted bytes go to |
| Stream.WriterStarts | stego/image.go:83-97 | Writer() starts an empty stream |
| Stream.WriteCount | stego/image.go:433-439 | on a stream, a successful Write accepts min(entropy − stegosize, len(buf)) bytes |
| Stream.WritePreserves | stego/image.go:412-428 | every successful Write extends the stream by exactly the bytes it accepted: they are embedded after the earlier ones, the cursor follows them, and the header holds the new length |
| Stream.StreamExtract | stego/image.go:423-426 | after a payload write at the end of the stream and the header rewrite, the stream reads back as before with the new bytes appended |
| Stream.ReaderStarts | stego/image.go:69-81 | Reader() on a non-empty stream succeeds, learns the stream's length from the header, and starts at its first byte |
| Stream.ReadCount | stego/image.go:323-329 | on a stream, each read succeeds and returns min(stegosize − bytesread, len(buf)) bytes, with EOF exactly when that is all that is left |
| Stream.ReadNext | stego/image.go:330-373 | each stream read returns the stream's next bytes in order and moves the reader past them |
| Stream.RoundTrip | stego/image.go:306-375 | after Writer() and a run of successful Writes that accepted at least one byte, a fresh Reader and one read into a large enough buffer return exactly the accepted bytes with EOF (on RGBA via Read itself) |
| Findings.EntropyOverfills | stego/image.go:61 | for any pixel count of eight or more below `uint32` saturation (pixels × 3 / 8 < 2^32), the capacity NewImage computes does not fit after the header |
| Findings.FullWriteFails | stego/image.go:61 | on a standard image of eight pixels or more below `uint32` saturation (pixels × 3 / 8 < 2^32), a first Write asking for the whole capacity panics |
| Findings.CapacityIgnoresHeader | stego/image.go:61 | a 4x4 RGBA image gets capacity 6, yet writing the five bytes "Hello" panics |
| Findings.Capacity | stego/image.go:61 | the intended capacity fits after the header, and (below `uint32` saturation) one byte more does not |
| Findings.NewImageFixed | stego/image.go:23-63 | NewImage with the intended capacity: RGBA and Gray always give a handle, and its capacity always fits after the header of a standard image |
| Findings.WriteWithinCapacity | stego/image.go:433-439 | once the capacity fits after the header, no Write on a stream panics |
| Findings.FixedFirstWrite | stego/image.go:83-97 | on a standard image opened with NewImageFixed, the first Write after Writer() succeeds |
| Findings.GrayLoopEight | stego/image.go:387-399 | readGray's loop asked for eight bytes stops after one pass, with its bound down to 0 |
| Findings.GrayReadLosesEight | stego/image.go:398 | an eight-byte Gray stream read into any buffer of 8 to 4096 bytes (main.go reads in 4096-byte chunks) comes back as 0 bytes with EOF; only its first byte reaches the buffer, and bytesread stays 0 |
| Findings.GrayRunsOff | stego/image.go:387-399 | once the bound has wrapped around, readGray's loop only stops by indexing past the buffer or the image |
| Findings.GrayReadTenPanics | stego/image.go:398 | reading a ten-byte Gray stream into any buffer of 10 to 4096 bytes panics |

## Left out

- The pixel-copy loops of NewImage (stego/image.go:37-56) are left out. They copy `At(x, y)` back into `Pix` through the colour model; the model takes the channel bytes as given.
- The mutexes (`rwm`) are left out: the model is sequential.
- Export (stego/image.go:99-101) is left out: it returns the wrapped image, whose `Pix` is the buffer the codec writes in place; the model's `Image.pix` is that buffer.
- `Entropy()` (stego/image.go:65-67) is left out as a separate member: it reads the field the model exposes as `Image.entropy`.
- The `io.Reader`/`io.Writer` wiring is left out. `io.EOF` is a boolean, and a panic is an `Err` value.
- A Write that panics part-way has already changed some pixels in Go. The model returns `Err` without that partial image.
- main.go is not part of this model. Its check at main.go:71 (message size at most `Entropy()`) is the caller's side of the Findings capacity row.
- The capacity follows the code's `(pixels >> 3) * bpp` (Stego.Entropy), not the floor(pixels × bpp / 8) capacity one would expect. They can differ only on RGBA, and only when the pixel count mod 8 is 3 or more (Stego.EntropyMatchesFloor).
- Stego.Writer follows the code: it resets stegosize to 0 but does not rewrite the header on creation. So after Writer() and no accepted byte, the image still holds the old header, and a later Reader() sees the old length. Stream.RoundTrip therefore needs at least one accepted byte.
- Stego.Reader trusts the header, as the code does. A declared length past the buffer makes a read fail once the bytes it requests run past the buffer (Stream.ReadMeetsSpec), instead of being clamped.
- Stego.ReadGray: its contract does not state the contents or the count, because as written they are wrong. Payload.ReadGrayDecodes states the contents, and the Findings rows state the count.
- Stego.Read: its contract states only the shape of the result; the contents are stated for RGBA by Stream.RoundTrip and for Gray by the Findings rows.
- Stream.RoundTrip, Stream.WriteCount, Stream.ReadCount: the min formula is stated for buffers shorter than 2^32 bytes, where `uint32(len(buf))` does not truncate.

## Findings

| source | as written | input that shows it | evidently intended | confidence | as-written member | corrected member |
|---|---|---|---|---|---|---|
| stego/image.go:61 | the capacity `sz >> 3 * bpp` counts the 32 header bits as payload room | a 4x4 RGBA image gets capacity 6; after Writer(), writing "Hello" (5 bytes) needs raw index 94 of a 64-byte buffer and panics | the capacity is the whole bytes left after the header, so every Write within it succeeds | not executed | Findings.FullWriteFails | Findings.WriteWithinCapacity |
| stego/image.go:398 | readGray's `sz -= 8` shrinks its own loop bound, and the shrunken bound is returned and added to bytesread | a Gray stream of 8 bytes read into a buffer of 8 to 4096 bytes returns 0 bytes with EOF; one of 10 bytes panics | readGray decodes min(remaining, len(buf)) bytes as readRGBA does | not executed | Findings.GrayReadLosesEight | Stream.RoundTrip |

=== FILE: bits.dfy ===
/** Fixed-width integer arithmetic and single-bit operations used by the codec.
    Go's uint32 is modelled as a bounded int with explicit wrap-around; carrier
    bytes are bv8 so that `&^1`, `&1`, `>>` and `<<` read as they do in Go. */
module Bits {

  const Modulus32: int := 0x1_0000_0000

  /** Go's uint32. */
  type uint32 = x: int | 0 <= x < 0x1_0000_0000

  function Pow2(k: nat): (r: nat)
    ensures r >= 1
  {
    if k == 0 then 1 else 2 * Pow2(k - 1)
  }

  /** The conversion `uint32(x)` of a non-negative Go int: keeps the low 32 bits. */
  function ToU32(x: nat): (r: uint32)
    ensures x < Modulus32 ==> r == x
    ensures r <= x
    ensures (x - r) % Modulus32 == 0
  {
    x % Modulus32
  }

  /** `a - b` on uint32: wraps around on underflow. */
  function Sub32(a: uint32, b: uint32): (r: uint32)
    ensures b <= a ==> r == a - b
    ensures a < b ==> r == Modulus32 + a - b
  {
    (a - b) % Modulus32
  }

  /** `a + b` on uint32: wraps around on overflow. */
  function Add32(a: uint32, b: uint32): (r: uint32)
    ensures a + b < Modulus32 ==> r == a + b
    ensures Modulus32 <= a + b ==> r == a + b - Modulus32
  {
    (a + b) % Modulus32
  }

  /** `n >> k & 1`: bit k of n (0 = least significant), a right shift being
      k halvings. */
  function ShiftBit(n: nat, k: nat): (r: nat)
    ensures r < 2
  {
    if k == 0 then n % 2 else ShiftBit(n / 2, k - 1)
  }

  /** `uint8(n >> k & 1)`: bit k of n as a byte holding 0 or 1, that is
      floor(n / 2^k) mod 2. */
  function BitByte(n: nat, k: nat): (r: bv8)
    ensures r <= 1
    ensures r == 1 <==> ShiftBit(n, k) == 1
    ensures r as int == n / Pow2(k) % 2
  {
    ShiftBitIsDiv(n, k);
    if ShiftBit(n, k) == 0 then 0 else 1
  }

  /** k halvings divide by 2^k. */
  lemma {:induction false} ShiftBitIsDiv(n: nat, k: nat)
    ensures ShiftBit(n, k) == n / Pow2(k) % 2
  {
    if k > 0 {
      ShiftBitIsDiv(n / 2, k - 1);
      HalveThenDivide(n, Pow2(k - 1));
    }
  }

  lemma {:induction false} HalveThenDivide(n: nat, m: nat)
    requires m > 0
    ensures n / (2 * m) == n / 2 / m
  {
    var h := n / 2;
    var q, r2, r1 := h / m, h % m, n % 2;
    assert h == m * q + r2;
    assert n == 2 * h + r1;
    assert n == (2 * m) * q + (2 * r2 + r1);
    DivUnique(n, 2 * m, q, 2 * r2 + r1);
  }

  /** Quotient and remainder are unique. */
  lemma {:induction false} DivUnique(n: nat, d: nat, q: nat, r: nat)
    requires d > 0 && n == d * q + r && r < d
    ensures n / d == q
  {
    var q0, r0 := n / d, n % d;
    assert d * q0 + r0 == d * q + r;
    if q0 < q {
      MulMonotone(d, q0 + 1, q);
    } else if q < q0 {
      MulMonotone(d, q + 1, q0);
    }
  }

  lemma {:induction false} MulMonotone(d: nat, a: nat, b: nat)
    requires a <= b
    ensures d * a <= d * b
    decreases b - a
  {
    if a < b {
      MulMonotone(d, a, b - 1);
      assert d * b == d * (b - 1) + d;
    }
  }

  /** Reassembles a little-endian bit string from the low bits of `bits`, the
      first element being bit 0: the value of the chain
      `n = uint32(b0 & 1); n |= uint32(b1 & 1) << 1; ...`. The bits are
      disjoint, so or-ing them is adding them. */
  function FromBits(bits: seq<bv8>): (r: nat)
    ensures r < Pow2(|bits|)
  {
    if |bits| == 0 then 0
    else (if (bits[0] & 1) == 0 then 0 else 1) + 2 * FromBits(bits[1..])
  }

  /** The low `w` bits of `n`, bit 0 first, each as a byte 0 or 1. */
  function ToBits(n: nat, w: nat): (bits: seq<bv8>)
    ensures |bits| == w
  {
    seq(w, (k: nat) => BitByte(n, k))
  }

  /** Shifting one place further equals halving first. */
  lemma {:induction false} ToBitsUnfold(n: nat, w: nat)
    requires w > 0
    ensures ToBits(n, w) == [BitByte(n, 0)] + ToBits(n / 2, w - 1)
  {
    var a := ToBits(n, w);
    var b := [BitByte(n, 0)] + ToBits(n / 2, w - 1);
    forall k | 0 <= k < w
      ensures a[k] == b[k]
    {
      if k > 0 {
        assert ShiftBit(n, k) == ShiftBit(n / 2, k - 1);
      }
    }
  }

  /** Writing the low `w` bits of a `w`-bit number and reading them back gives
      the number. */
  lemma {:induction false} FromToBits(n: nat, w: nat)
    requires n < Pow2(w)
    ensures FromBits(ToBits(n, w)) == n
  {
    if w == 0 {
    } else {
      ToBitsUnfold(n, w);
      var bits := ToBits(n, w);
      assert bits[1..] == ToBits(n / 2, w - 1);
      FromToBits(n / 2, w - 1);
      assert (bits[0] & 1) == 0 <==> n % 2 == 0;
    }
  }

  // ---------------------------------------------------------------------------
  // Carrier bytes

  /** `p & 1`: the bit a carrier byte contributes. */
  function Lsb(p: bv8): (r: bv8)
    ensures r <= 1
    ensures r == 0 <==> p % 2 == 0
  {
    p & 1
  }

  /** `p &^ 1 | bit`: replaces bit 0 of p and keeps bits 1-7. */
  function WithLsb(p: bv8, bit: bv8): (r: bv8)
    requires bit <= 1
    ensures Lsb(r) == bit
    ensures (r & 0xFE) == (p & 0xFE)
    ensures Lsb(p) == bit ==> r == p
  {
    (p & 0xFE) | bit
  }

  /** `b >> k & 1`: bit k of a payload byte, a right shift by k being k
      shifts by one. */
  function Bit(b: bv8, k: nat): (r: bv8)
    ensures r <= 1
  {
    if k == 0 then b & 1 else Bit(b >> 1, k - 1)
  }

  /** The eight bits of a payload byte in the order the unrolled store loops
      take them, bit 0 first: `b & 1`, `b >> 1 & 1`, ..., `b >> 7 & 1`. */
  function ByteBits(b: bv8): (bits: seq<bv8>)
    ensures |bits| == 8
    ensures forall k :: 0 <= k < 8 ==> bits[k] <= 1
  {
    seq(8, (k: nat) => Bit(b, k))
  }

  /** Decodes one payload byte from eight carrier bytes as the unrolled load
      loops do, the first carrying bit 0:
      `c0 & 1 | c1 & 1 << 1 | ... | c7 & 1 << 7`. */
  function PackByte(c: seq<bv8>): bv8
    requires |c| == 8
  {
    (c[0] & 1) | ((c[1] & 1) << 1) | ((c[2] & 1) << 2) | ((c[3] & 1) << 3)
    | ((c[4] & 1) << 4) | ((c[5] & 1) << 5) | ((c[6] & 1) << 6) | ((c[7] & 1) << 7)
  }

  /** The byte whose bit k is bit 0 of c[k], built from the top bit down:
      bits beyond the eighth fall off the byte. */
  function PackBits(c: seq<bv8>): bv8
  {
    if |c| == 0 then 0 else Lsb(c[0]) | (PackBits(c[1..]) << 1)
  }

  /** The unrolled decode is PackBits. */
  lemma {:induction false} PackByteIsPackBits(c: seq<bv8>)
    requires |c| == 8
    ensures PackByte(c) == PackBits(c)
  {
    assert PackBits(c[7..]) == Lsb(c[7]) by { assert PackBits(c[8..]) == 0; }
    assert PackBits(c[6..]) == Lsb(c[6]) | (Lsb(c[7]) << 1) by { assert c[6..][1..] == c[7..]; }
    assert PackBits(c[5..]) == Lsb(c[5]) | (PackBits(c[6..]) << 1) by { assert c[5..][1..] == c[6..]; }
    assert PackBits(c[4..]) == Lsb(c[4]) | (PackBits(c[5..]) << 1) by { assert c[4..][1..] == c[5..]; }
    assert PackBits(c[3..]) == Lsb(c[3]) | (PackBits(c[4..]) << 1) by { assert c[3..][1..] == c[4..]; }
    assert PackBits(c[2..]) == Lsb(c[2]) | (PackBits(c[3..]) << 1) by { assert c[2..][1..] == c[3..]; }
    assert PackBits(c[1..]) == Lsb(c[1]) | (PackBits(c[2..]) << 1) by { assert c[1..][1..] == c[2..]; }
  }

  /** All ones in the low n bits. */
  function Mask(n: nat): bv8
  {
    if n == 0 then 0 else (Mask(n - 1) << 1) | 1
  }

  /** Carrier bytes whose low bits are bits 0..n-1 of b pack to those bits of b. */
  lemma {:induction false} PackBitsOfBits(b: bv8, c: seq<bv8>)
    requires forall k :: 0 <= k < |c| ==> Lsb(c[k]) == Bit(b, k)
    ensures PackBits(c) == b & Mask(|c|)
  {
    if |c| > 0 {
      forall k | 0 <= k < |c| - 1
        ensures Lsb(c[1..][k]) == Bit(b >> 1, k)
      {
        assert Bit(b, k + 1) == Bit(b >> 1, k);
      }
      PackBitsOfBits(b >> 1, c[1..]);
      assert Lsb(c[0]) == b & 1;
      MaskStep(b, Mask(|c| - 1));
    }
  }

  lemma {:induction false} MaskStep(b: bv8, m: bv8)
    ensures (b & 1) | (((b >> 1) & m) << 1) == b & ((m << 1) | 1)
  {
  }

  /** Per-byte decode inverts per-byte encode: eight carrier bytes whose low
      bits are the bits of b, in order, decode to b. */
  lemma {:induction false} PackBitsBits(b: bv8, c: seq<bv8>)
    requires |c| == 8
    requires forall k :: 0 <= k < 8 ==> Lsb(c[k]) == Bit(b, k)
    ensures PackBits(c) == b
  {
    PackBitsOfBits(b, c);
    assert Mask(8) == 0xFF;
  }

  /** Decoding looks at nothing but the low bit of each carrier byte. */
  lemma {:induction false} PackBitsLsbOnly(c: seq<bv8>, d: seq<bv8>)
    requires |c| == |d|
    requires forall k :: 0 <= k < |c| ==> Lsb(c[k]) == Lsb(d[k])
    ensures PackBits(c) == PackBits(d)
  {
    if |c| > 0 {
      PackBitsLsbOnly(c[1..], d[1..]);
    }
  }
}

=== FILE: findings.dfy ===
/** Two places where the code does not do what it evidently intends.
    Each is shown on the model of the code as written, and the intended
    behaviour is defined and proved beside it. */
module Findings {
  import opened Bits
  import opened Layouts
  import opened Results
  import opened Header
  import opened Payload
  import opened Stego
  import opened Stream

  // ---------------------------------------------------------------------------
  // The capacity counts the header as payload room

  /** As written: after NewImage and Writer() on a standard image of at least
      eight pixels, a Write asking for the whole capacity panics. Its last
      payload bit lands past the end of the buffer, because the 32 header bits
      were counted as payload room. */
  lemma {:induction false} FullWriteFails(r: Raster, buf: seq<bv8>)
    requires (r.RGBAImage? || r.GrayImage?) && Standard(r)
    requires r.dx * r.dy >= 8 && r.dx * r.dy * 3 / 8 < Modulus32
    requires NewImage(r).value.value.entropy <= |buf| < Modulus32
    ensures Write(Writer(NewImage(r).value.value).0, Writer(NewImage(r).value.value).1, buf).Err?
  {
    var img := NewImage(r).value.value;
    var l, P := img.layout, r.dx * r.dy;
    assert |img.pix| == BytesPerPixel(l) * P;
    EntropyOverfills(l, P);
    var (img0, w) := Writer(img);
    assert Accepted(img0, buf).0 == img.entropy;
    RawIsEligible(l, HeaderBits);
    WriteMeetsSpec(img0, w, HeaderBits, buf);
  }

  /** The capacity NewImage computes for eight pixels or more spends every
      eligible bit of the whole groups of eight pixels, and the at most seven
      pixels left over carry fewer than the 32 header bits, so it never fits
      after the header. */
  lemma {:induction false} EntropyOverfills(l: Layout, P: nat)
    requires P >= 8 && P * 3 / 8 < Modulus32
    ensures Entropy(l, P) > 0
    ensures !Fits(l, BytesPerPixel(l) * P, HeaderBits, Entropy(l, P))
  {
    var b, q, rest := BitsPerPixel(l), P / 8, P % 8;
    assert P == 8 * q + rest && q >= 1;
    assert P * b == 8 * (q * b) + rest * b;
    assert P * b < 8 * Modulus32;
    EighthsBound(P, b);
    assert Entropy(l, P) == q * b;
    assert rest * b <= 21;
    PayloadFits(l, P, Entropy(l, P));
  }

  /** As written, on the smallest case: a 4x4 RGBA image gets capacity 6, yet
      writing the five bytes of "Hello" panics, since they need raw index 94
      of a 64-byte buffer. */
  lemma {:induction false} CapacityIgnoresHeader()
    ensures NewImage(RGBAImage(4, 4, seq(64, k => 0 as bv8))).value.value.entropy == 6
    ensures var img := NewImage(RGBAImage(4, 4, seq(64, k => 0 as bv8))).value.value;
      Write(Writer(img).0, Writer(img).1, [72, 101, 108, 108, 111]).Err?
  {
    var img := NewImage(RGBAImage(4, 4, seq(64, k => 0 as bv8))).value.value;
    var (img0, w) := Writer(img);
    var buf: seq<bv8> := [72, 101, 108, 108, 111];
    assert Accepted(img0, buf).0 == 5;
    WriteMeetsSpec(img0, w, HeaderBits, buf);
    FitsByLast(RGBA, 64, HeaderBits, 5);
  }

  /** The capacity one would expect: the whole bytes that fit in the
      eligible bits left after the header, saturated at the largest uint32.
      That many bytes fit after the header, and (below the saturation) one
      more does not. */
  function Capacity(l: Layout, pixels: nat): (r: uint32)
    ensures Fits(l, BytesPerPixel(l) * pixels, HeaderBits, r)
    ensures r < Modulus32 - 1 ==> !Fits(l, BytesPerPixel(l) * pixels, HeaderBits, r + 1)
  {
    var bits := pixels * BitsPerPixel(l);
    var c: nat := if bits < HeaderBits then 0 else (bits - HeaderBits) / 8;
    var r: uint32 := if c < Modulus32 then c else Modulus32 - 1;
    PayloadFits(l, pixels, r + 1);
    if r == 0 then r
    else
      PayloadFits(l, pixels, r);
      r
  }

  /** NewImage with the intended capacity; otherwise as NewImage. */
  function NewImageFixed(img: Raster): (r: Result<Option<Image>>)
    ensures img.NoImage? <==> r == Ok(None)
    ensures img.OtherImage? <==> r == Err(UnsupportedLayout)
    ensures img.RGBAImage? || img.GrayImage? <==> r.Ok? && r.value.Some?
    ensures r.Ok? && r.value.Some? ==>
      && (img.RGBAImage? || img.GrayImage?)
      && r.value.value.layout == (if img.RGBAImage? then RGBA else Gray)
      && r.value.value.pix == img.pix
      && r.value.value.stegosize == 0
      && r.value.value.entropy == Capacity(r.value.value.layout, img.dx * img.dy)
    ensures r.Ok? && r.value.Some? && Standard(img) ==>
      Fits(r.value.value.layout, |r.value.value.pix|, HeaderBits, r.value.value.entropy)
  {
    match img
    case NoImage => Ok(None)
    case RGBAImage(dx, dy, pix) => Ok(Some(Image(RGBA, Capacity(RGBA, dx * dy), 0, pix)))
    case GrayImage(dx, dy, pix) => Ok(Some(Image(Gray, Capacity(Gray, dx * dy), 0, pix)))
    case OtherImage => Err(UnsupportedLayout)
  }

  /** Corrected: once the capacity fits after the header, as NewImageFixed
      guarantees, no Write on a stream ever panics, so every call accepts
      min(capacity - stegosize, len(buf)) bytes (WriteCount) and extends the
      stream (WritePreserves). */
  lemma {:induction false} WriteWithinCapacity(img: Image, w: ImageWriter, written: seq<bv8>, buf: seq<bv8>)
    requires Holds(img, w, written)
    requires Fits(img.layout, |img.pix|, HeaderBits, img.entropy)
    ensures Write(img, w, buf).Ok?
  {
    var m := |written|;
    assert Sub32(img.entropy, img.stegosize) == img.entropy - m;
    var n := Accepted(img, buf).0;
    FitsWithin(img.layout, |img.pix|, HeaderBits, img.entropy, m, n);
    WriteMeetsSpec(img, w, HeaderBits + 8 * m, buf);
  }

  /** Corrected, from the start: a standard image opened with NewImageFixed
      takes a first Write after Writer() without panicking. */
  lemma {:induction false} FixedFirstWrite(r: Raster, buf: seq<bv8>)
    requires (r.RGBAImage? || r.GrayImage?) && Standard(r)
    ensures NewImageFixed(r).Ok? && NewImageFixed(r).value.Some?
    ensures Write(Writer(NewImageFixed(r).value.value).0, Writer(NewImageFixed(r).value.value).1, buf).Ok?
  {
    var img := NewImageFixed(r).value.value;
    WriterStarts(img);
    WriteWithinCapacity(Writer(img).0, Writer(img).1, [], buf);
  }

  // ---------------------------------------------------------------------------
  // readGray shrinks its own loop bound

  /** As written: a Gray stream of eight bytes reads back as nothing. readGray
      stores the first byte, but `sz -= 8` ends its loop after one pass, so
      it returns 0 with EOF and leaves bytesread at 0. This holds for every
      buffer from the stream's length up to the 4096 bytes a caller reads in. */
  lemma {:induction false} GrayReadLosesEight(img: Image, w: ImageWriter, written: seq<bv8>, buf: seq<bv8>)
    requires img.layout == Gray && Holds(img, w, written) && |written| == 8
    requires |written| <= |buf| <= 4096
    ensures Reader(img).Ok?
    ensures Read(Reader(img).value.0, Reader(img).value.1, buf)
         == Ok(ReadOut(ImageReader(40, 0), [written[0]] + buf[1..], 0, true))
  {
    ReaderStarts(img, w, written);
    var rd := Reader(img).value;
    assert rd.1 == ImageReader(32, 0);
    assert Requested(rd.0, rd.1, buf) == (8, true);
    FitsByLast(Gray, |img.pix|, HeaderBits, 8);
    ExtractSpecAt(Gray, img.pix, HeaderBits, 8, 0);
    assert Gather(img.pix, Positions(Gray, 32, 8)) == img.pix[32 .. 40];
    assert written[0] == PackBits(img.pix[32 .. 40]);
    GrayLoopEight(img.pix, |buf|);
    assert Add32(0, 0) == 0;
  }

  /** readGray's loop asked for eight bytes from cursor 32 stops after one
      pass, with its bound down to 0. */
  lemma {:induction false} GrayLoopEight(pix: seq<bv8>, bufLen: nat)
    requires |pix| >= 40 && bufLen >= 8
    ensures ReadGrayLoop(pix, 32, 0, 8, bufLen) == Ok(GrayScan([PackBits(pix[32 .. 40])], 40, 0))
  {
    assert Sub32(8, 8) == 0;
    assert ReadGrayLoop(pix, 40, 1, 0, bufLen) == Ok(GrayScan([], 40, 0));
    assert [PackBits(pix[32 .. 40])] + [] == [PackBits(pix[32 .. 40])];
  }

  /** As written: a Gray stream of ten bytes panics on reading. After two
      passes `sz` wraps below zero to 2^32 - 6, and the loop runs on until it
      indexes past the caller's buffer (or past the image), whatever its
      length between ten and 4096 bytes. */
  lemma {:induction false} GrayReadTenPanics(img: Image, w: ImageWriter, written: seq<bv8>, buf: seq<bv8>)
    requires img.layout == Gray && Holds(img, w, written) && |written| == 10
    requires |written| <= |buf| <= 4096
    ensures Reader(img).Ok?
    ensures Read(Reader(img).value.0, Reader(img).value.1, buf).Err?
  {
    ReaderStarts(img, w, written);
    var rd := Reader(img).value;
    assert rd.1 == ImageReader(32, 0);
    assert Requested(rd.0, rd.1, buf) == (10, true);
    FitsByLast(Gray, |img.pix|, HeaderBits, 10);
    assert Sub32(10, 8) == 2;
    assert Sub32(2, 8) == Modulus32 - 6;
    GrayRunsOff(img.pix, 48, 2, Modulus32 - 6, |buf|);
  }

  /** Once the shrunken bound has wrapped to a large value, readGray's loop
      only stops by indexing past the buffer or the image. */
  lemma {:induction false} GrayRunsOff(pix: seq<bv8>, i: nat, j: uint32, sz: uint32, bufLen: nat)
    requires j <= bufLen && j + 9 * (bufLen - j) < sz
    ensures ReadGrayLoop(pix, i, j, sz, bufLen).Err?
    decreases bufLen - j
  {
    if i + 7 < |pix| && j < bufLen {
      GrayRunsOff(pix, i + 8, j + 1, Sub32(sz, 8), bufLen);
    }
  }
}

=== FILE: header.dfy ===
/** The 32-bit length header: writeSize / readSize and their RGBA and Gray
    variants. Bit k of the length sits in bit 0 of the raw byte at
    HeaderIndices(layout)[k], which is Raw(layout, k). */
module Header {
  import opened Bits
  import opened Layouts
  import opened Results

  /** Sets bit 0 of pix[idx[k]] to bits[k] for each k in turn,
      `pix[i] = pix[i]&^1 | bit`, keeping bits 1-7. What it does to each
      byte is stated by PutLsbsKeeps, PutLsbsSets and PutLsbsHigh. */
  function PutLsbs(pix: seq<bv8>, idx: seq<int>, bits: seq<bv8>): (r: seq<bv8>)
    requires |idx| == |bits|
    requires forall k :: 0 <= k < |idx| ==> 0 <= idx[k] < |pix|
    requires forall k :: 0 <= k < |bits| ==> bits[k] <= 1
    ensures |r| == |pix|
    decreases |idx|
  {
    if |idx| == 0 then pix
    else PutLsbs(pix[idx[0] := WithLsb(pix[idx[0]], bits[0])], idx[1..], bits[1..])
  }

  /** A byte whose index is not in the list is left as it was. */
  lemma {:induction false} PutLsbsKeeps(pix: seq<bv8>, idx: seq<int>, bits: seq<bv8>, j: int)
    requires |idx| == |bits|
    requires forall k :: 0 <= k < |idx| ==> 0 <= idx[k] < |pix|
    requires forall k :: 0 <= k < |bits| ==> bits[k] <= 1
    requires 0 <= j < |pix| && j !in idx
    ensures PutLsbs(pix, idx, bits)[j] == pix[j]
    decreases |idx|
  {
    if |idx| > 0 {
      assert j !in idx[1..];
      PutLsbsKeeps(pix[idx[0] := WithLsb(pix[idx[0]], bits[0])], idx[1..], bits[1..], j);
    }
  }

  /** When no index repeats, the byte at idx[k] ends with bit 0 equal to
      bits[k] and bits 1-7 as they were. */
  lemma {:induction false} PutLsbsSets(pix: seq<bv8>, idx: seq<int>, bits: seq<bv8>, k: int)
    requires |idx| == |bits|
    requires forall k :: 0 <= k < |idx| ==> 0 <= idx[k] < |pix|
    requires forall k :: 0 <= k < |bits| ==> bits[k] <= 1
    requires Increasing(idx)
    requires 0 <= k < |idx|
    ensures PutLsbs(pix, idx, bits)[idx[k]] == WithLsb(pix[idx[k]], bits[k])
    decreases |idx|
  {
    var pix' := pix[idx[0] := WithLsb(pix[idx[0]], bits[0])];
    if k == 0 {
      assert idx[0] !in idx[1..];
      PutLsbsKeeps(pix', idx[1..], bits[1..], idx[0]);
    } else {
      assert Increasing(idx[1..]);
      PutLsbsSets(pix', idx[1..], bits[1..], k - 1);
      assert idx[k] != idx[0];
    }
  }

  /** Bits 1-7 of every byte are kept. */
  lemma {:induction false} PutLsbsHigh(pix: seq<bv8>, idx: seq<int>, bits: seq<bv8>, j: int)
    requires |idx| == |bits|
    requires forall k :: 0 <= k < |idx| ==> 0 <= idx[k] < |pix|
    requires forall k :: 0 <= k < |bits| ==> bits[k] <= 1
    requires 0 <= j < |pix|
    ensures (PutLsbs(pix, idx, bits)[j] & 0xFE) == (pix[j] & 0xFE)
    decreases |idx|
  {
    if |idx| > 0 {
      var pix' := pix[idx[0] := WithLsb(pix[idx[0]], bits[0])];
      PutLsbsHigh(pix', idx[1..], bits[1..], j);
    }
  }

  /** The bytes at the given indices, in order. */
  function Gather(pix: seq<bv8>, idx: seq<int>): (r: seq<bv8>)
    requires forall k :: 0 <= k < |idx| ==> 0 <= idx[k] < |pix|
    ensures |r| == |idx|
    ensures forall k :: 0 <= k < |idx| ==> r[k] == pix[idx[k]]
  {
    seq(|idx|, (k: nat) requires k < |idx| => pix[idx[k]])
  }

  /** Bit 0 of the raw bytes holding the header, in bit order. */
  function HeaderLsbs(l: Layout, pix: seq<bv8>): (bits: seq<bv8>)
    requires HeaderSpan(l) <= |pix|
    ensures |bits| == HeaderBits
  {
    HeaderIndicesFit(l);
    Gather(pix, HeaderIndices(l))
  }

  /** writeSize(n): stores the 32 bits of n, bit 0 first, in the header
      positions. The unrolled code indexes up to raw 41 (RGBA) or 31 (Gray),
      so a shorter buffer panics. Which bytes change, and how, is stated by
      HeaderFootprint. */
  function WriteSize(l: Layout, pix: seq<bv8>, n: uint32): (r: Result<seq<bv8>>)
    ensures r.Ok? <==> HeaderSpan(l) <= |pix|
    ensures r.Ok? ==> |r.value| == |pix|
  {
    if |pix| < HeaderSpan(l) then Err(IndexOutOfRange)
    else
      HeaderIndicesFit(l);
      Ok(PutLsbs(pix, HeaderIndices(l), ToBits(n, HeaderBits)))
  }

  /** The footprint of writeSize, stated through the eligible-stream mapping:
      the bytes changed are the eligible ones at logical positions 0..31, and
      each of them gets bit Logical(j) of n in bit 0 and keeps bits 1-7. */
  lemma {:induction false} HeaderFootprint(l: Layout, pix: seq<bv8>, n: uint32)
    requires HeaderSpan(l) <= |pix|
    ensures WriteSize(l, pix, n).Ok?
    ensures forall j :: 0 <= j < |pix| ==>
      WriteSize(l, pix, n).value[j]
        == (if Eligible(l, j) && Logical(l, j) < HeaderBits
            then WithLsb(pix[j], BitByte(n, Logical(l, j)))
            else pix[j])
  {
    HeaderIndicesFit(l);
    var h := HeaderIndices(l);
    var bits := ToBits(n, HeaderBits);
    forall j | 0 <= j < |pix|
      ensures PutLsbs(pix, h, bits)[j]
        == (if Eligible(l, j) && Logical(l, j) < HeaderBits
            then WithLsb(pix[j], BitByte(n, Logical(l, j)))
            else pix[j])
    {
      if Eligible(l, j) && Logical(l, j) < HeaderBits {
        var k := Logical(l, j);
        LogicalIsInverse(l, j);
        assert h[k] == j;
        PositionsIncrease(l, 0, HeaderBits);
        PutLsbsSets(pix, h, bits, k);
      } else {
        forall k | 0 <= k < HeaderBits
          ensures h[k] != j
        {
          RawIsEligible(l, k);
        }
        PutLsbsKeeps(pix, h, bits, j);
      }
    }
  }

  /** writeSize leaves the eligible bytes past the header as they were. */
  lemma {:induction false} HeaderKeepsPayload(l: Layout, pix: seq<bv8>, n: uint32, L: nat)
    requires HeaderSpan(l) <= |pix|
    requires HeaderBits <= L && Raw(l, L) < |pix|
    ensures WriteSize(l, pix, n).value[Raw(l, L)] == pix[Raw(l, L)]
  {
    HeaderFootprint(l, pix, n);
    RawIsEligible(l, L);
  }

  /** readSize(): reassembles the header, bit 0 first. Like writeSize, it
      panics on a buffer shorter than the header. ReadSizeBits says which bit
      comes from where. */
  function ReadSize(l: Layout, pix: seq<bv8>): (r: Result<uint32>)
    ensures r.Ok? <==> HeaderSpan(l) <= |pix|
  {
    if |pix| < HeaderSpan(l) then Err(IndexOutOfRange)
    else
      Pow2Is32Bits();
      Ok(FromBits(HeaderLsbs(l, pix)))
  }

  /** Bit k of the length read is bit 0 of the raw byte at Raw(k). */
  lemma {:induction false} ReadSizeBits(l: Layout, pix: seq<bv8>)
    requires HeaderSpan(l) <= |pix|
    ensures ReadSize(l, pix).Ok?
    ensures forall k :: 0 <= k < HeaderBits ==>
      BitByte(ReadSize(l, pix).value, k) == Lsb(pix[Raw(l, k)])
  {
    var bits := HeaderLsbs(l, pix);
    HeaderIndicesFit(l);
    forall k | 0 <= k < HeaderBits
      ensures BitByte(FromBits(bits), k) == Lsb(pix[Raw(l, k)])
    {
      ShiftBitFromBits(bits, k);
    }
  }

  lemma {:induction false} Pow2Is32Bits()
    ensures Pow2(32) == Modulus32
  {
    assert Pow2(8) == 256 by {
      assert Pow2(4) == 16 by { assert Pow2(2) == 4; }
    }
    assert Pow2(16) == 65536 by { Pow2Add(8, 8); }
    Pow2Add(16, 16);
  }

  lemma {:induction false} Pow2Add(a: nat, b: nat)
    ensures Pow2(a + b) == Pow2(a) * Pow2(b)
  {
    if a > 0 {
      Pow2Add(a - 1, b);
    }
  }

  /** Bit k of a reassembled value is bit 0 of the k-th source byte. */
  lemma {:induction false} ShiftBitFromBits(bits: seq<bv8>, k: nat)
    requires k < |bits|
    ensures ShiftBit(FromBits(bits), k) == (if (bits[k] & 1) == 0 then 0 else 1)
  {
    var x := FromBits(bits);
    assert x == (if (bits[0] & 1) == 0 then 0 else 1) + 2 * FromBits(bits[1..]);
    if k > 0 {
      assert x / 2 == FromBits(bits[1..]);
      ShiftBitFromBits(bits[1..], k - 1);
    }
  }

  /** Reassembly looks at bit 0 of each byte only. */
  lemma {:induction false} FromBitsLsbOnly(a: seq<bv8>, b: seq<bv8>)
    requires |a| == |b|
    requires forall k :: 0 <= k < |a| ==> Lsb(a[k]) == Lsb(b[k])
    ensures FromBits(a) == FromBits(b)
  {
    if |a| > 0 {
      FromBitsLsbOnly(a[1..], b[1..]);
    }
  }

  /** Header round trip: reading the header back after writing n gives n, on
      every buffer long enough to hold it. */
  lemma {:induction false} HeaderRoundTrip(l: Layout, pix: seq<bv8>, n: uint32)
    requires HeaderSpan(l) <= |pix|
    ensures WriteSize(l, pix, n).Ok?
    ensures ReadSize(l, WriteSize(l, pix, n).value) == Ok(n)
  {
    var w := WriteSize(l, pix, n).value;
    HeaderFootprint(l, pix, n);
    HeaderIndicesFit(l);
    var got := HeaderLsbs(l, w);
    var bits := ToBits(n, HeaderBits);
    forall k | 0 <= k < HeaderBits
      ensures Lsb(got[k]) == Lsb(bits[k])
    {
      var j := Raw(l, k);
      RawIsEligible(l, k);
      assert got[k] == w[j] == WithLsb(pix[j], BitByte(n, k));
    }
    FromBitsLsbOnly(got, bits);
    Pow2Is32Bits();
    FromToBits(n, HeaderBits);
  }

  /** The header depends on bit 0 of the first HeaderSpan bytes only: a change
      anywhere else, or to bits 1-7, leaves readSize's answer alone. */
  lemma {:induction false} ReadSizeFrame(l: Layout, a: seq<bv8>, b: seq<bv8>)
    requires HeaderSpan(l) <= |a| && HeaderSpan(l) <= |b|
    requires forall j :: 0 <= j < HeaderSpan(l) ==> Lsb(a[j]) == Lsb(b[j])
    ensures ReadSize(l, a) == ReadSize(l, b)
  {
    HeaderIndicesFit(l);
    FromBitsLsbOnly(HeaderLsbs(l, a), HeaderLsbs(l, b));
  }
}

=== FILE: image.dfy ===
/** The Image handle and its streaming reader and writer: NewImage, Reader,
    Writer, imageWriter.Write and imageReader.Read. The shared *Image is
    threaded through as a value; each call returns the state it leaves
    behind. */
module Stego {
  import opened Bits
  import opened Layouts
  import opened Results
  import opened Header
  import opened Payload

  /** The image.Image handed to NewImage: nil, an *image.RGBA or *image.Gray
      (the width and height of its bounds and its Pix buffer), or an image
      of any other type. */
  datatype Raster =
    | NoImage
    | RGBAImage(dx: nat, dy: nat, pix: seq<bv8>)
    | GrayImage(dx: nat, dy: nat, pix: seq<bv8>)
    | OtherImage

  /** A Pix buffer of the length image.NewRGBA / image.NewGray allocate:
      four bytes per pixel for RGBA, one for Gray. */
  predicate Standard(img: Raster)
  {
    match img
    case RGBAImage(dx, dy, pix) => |pix| == BytesPerPixel(RGBA) * (dx * dy)
    case GrayImage(dx, dy, pix) => |pix| == BytesPerPixel(Gray) * (dx * dy)
    case _ => true
  }

  /** The fields of Image the codec uses: the colour type, the capacity in
      bytes, the current message length and the channel bytes. */
  datatype Image = Image(layout: Layout, entropy: uint32, stegosize: uint32, pix: seq<bv8>)

  /** imageReader: the raw cursor and the count of bytes returned so far. */
  datatype ImageReader = ImageReader(index: nat, bytesread: uint32)

  /** imageWriter: the raw cursor. */
  datatype ImageWriter = ImageWriter(index: nat)

  /** `uint32(sz >> 3 * bpp)`: Go's `>>` and `*` bind equally tight and
      associate to the left, so this is (pixels / 8) * bpp: the pixels beyond
      the last whole group of eight carry nothing. It never exceeds the whole
      bytes the eligible bits can carry, and equals it when the pixel count
      is a multiple of eight. */
  function Entropy(l: Layout, pixels: nat): (r: uint32)
    ensures r <= pixels * BitsPerPixel(l) / 8
    ensures pixels * BitsPerPixel(l) < 8 * Modulus32
            ==> r == (pixels - pixels % 8) * BitsPerPixel(l) / 8
    ensures pixels % 8 == 0 && pixels * BitsPerPixel(l) / 8 < Modulus32
            ==> r == pixels * BitsPerPixel(l) / 8
  {
    EighthsBound(pixels, BitsPerPixel(l));
    ToU32(pixels / 8 * BitsPerPixel(l))
  }

  /** The code's capacity agrees with floor(pixels * bpp / 8) exactly on Gray,
      and on RGBA when the pixel count mod 8 is 0, 1 or 2. */
  lemma {:induction false} EntropyMatchesFloor(l: Layout, pixels: nat)
    requires pixels * 3 < 8 * Modulus32
    ensures Entropy(l, pixels) == pixels * BitsPerPixel(l) / 8 <==> l == Gray || pixels % 8 <= 2
  {
    var b, q, rest := BitsPerPixel(l), pixels / 8, pixels % 8;
    assert pixels * b == 8 * (q * b) + rest * b;
    assert pixels * b / 8 == q * b + rest * b / 8;
    EighthsBound(pixels, b);
    assert Entropy(l, pixels) == q * b;
  }

  lemma {:induction false} EighthsBound(x: nat, b: nat)
    ensures x / 8 * b <= x * b / 8
    ensures x % 8 == 0 ==> x / 8 * b == x * b / 8
    ensures x / 8 * b == (x - x % 8) * b / 8
  {
    var q, r := x / 8, x % 8;
    assert x * b == 8 * (q * b) + r * b;
    assert (x - r) * b == 8 * (q * b);
    assert (8 * (q * b) + r * b) / 8 == q * b + (r * b) / 8;
  }

  /** NewImage: nil gives nil, an RGBA or Gray image gives a handle on its
      buffer with no message yet, any other type panics. */
  function NewImage(img: Raster): (r: Result<Option<Image>>)
    ensures img.NoImage? <==> r == Ok(None)
    ensures img.OtherImage? <==> r == Err(UnsupportedLayout)
    ensures img.RGBAImage? || img.GrayImage? <==> r.Ok? && r.value.Some?
    ensures r.Ok? && r.value.Some? ==>
      && (img.RGBAImage? || img.GrayImage?)
      && r.value.value.layout == (if img.RGBAImage? then RGBA else Gray)
      && r.value.value.pix == img.pix
      && r.value.value.stegosize == 0
      && r.value.value.entropy == Entropy(r.value.value.layout, img.dx * img.dy)
  {
    match img
    case NoImage => Ok(None)
    case RGBAImage(dx, dy, pix) => Ok(Some(Image(RGBA, Entropy(RGBA, dx * dy), 0, pix)))
    case GrayImage(dx, dy, pix) => Ok(Some(Image(Gray, Entropy(Gray, dx * dy), 0, pix)))
    case OtherImage => Err(UnsupportedLayout)
  }

  /** Writer(): a writer whose cursor stands at the first logical position
      after the header; the message length is reset to 0, and the header
      and every other byte are left as they were. */
  function Writer(img: Image): (r: (Image, ImageWriter))
    ensures r.0 == img.(stegosize := 0)
    ensures r.1.index == Raw(img.layout, HeaderBits)
  {
    HeaderSpanIsRaw(img.layout);
    (img.(stegosize := 0), ImageWriter(PayloadStart(img.layout)))
  }

  /** Reader(): a reader at the first logical position after the header, with
      nothing read yet; the message length becomes whatever the header holds,
      unchecked. A buffer shorter than the header panics. */
  function Reader(img: Image): (r: Result<(Image, ImageReader)>)
    ensures r.Ok? <==> HeaderSpan(img.layout) <= |img.pix|
    ensures r.Ok? ==> r.value.0 == img.(stegosize := r.value.0.stegosize)
    ensures r.Ok? ==> r.value.1 == ImageReader(Raw(img.layout, HeaderBits), 0)
    ensures r.Ok? ==> forall k :: 0 <= k < HeaderBits ==>
      BitByte(r.value.0.stegosize, k) == Lsb(img.pix[Raw(img.layout, k)])
  {
    match ReadSize(img.layout, img.pix)
    case Err(e) => Err(e)
    case Ok(n) =>
      ReadSizeBits(img.layout, img.pix);
      HeaderSpanIsRaw(img.layout);
      Ok((img.(stegosize := n), ImageReader(PayloadStart(img.layout), 0)))
  }

  /** The count a call accepts and whether it reports io.EOF: the remaining
      count, cut down to `uint32(len(buf))` when larger, with EOF exactly
      when it was not cut. */
  function Clamp(remaining: uint32, bufLen: nat): (r: (uint32, bool))
    ensures r.0 <= remaining && r.0 <= bufLen
    ensures r.1 <==> remaining <= ToU32(bufLen)
    ensures r.1 ==> r.0 == remaining
    ensures !r.1 ==> r.0 == ToU32(bufLen)
    ensures bufLen < Modulus32 ==> r.0 == if remaining <= bufLen then remaining else bufLen
  {
    if remaining > ToU32(bufLen) then (ToU32(bufLen), false) else (remaining, true)
  }

  /** What a Write accepts: `entropy - stegosize` (uint32) cut to the buffer. */
  function Accepted(img: Image, buf: seq<bv8>): (uint32, bool)
  {
    Clamp(Sub32(img.entropy, img.stegosize), |buf|)
  }

  /** The outcome of a Write: the image and writer afterwards, the count
      returned and whether io.EOF came with it. */
  datatype Written = Written(img: Image, writer: ImageWriter, n: uint32, eof: bool)

  /** imageWriter.Write: embeds the accepted bytes with writeRGBA / writeGray
      (the same loop under each layout's stride), then, when it accepted any,
      adds their count to stegosize and rewrites the header with it. */
  function Write(img: Image, w: ImageWriter, buf: seq<bv8>): (r: Result<Written>)
    ensures Sub32(img.entropy, img.stegosize) == 0 ==> r == Ok(Written(img, w, 0, true))
    ensures r.Ok? ==> r.value.n == Accepted(img, buf).0 && r.value.eof == Accepted(img, buf).1
    ensures r.Ok? ==> && r.value.img.layout == img.layout
                      && r.value.img.entropy == img.entropy
                      && |r.value.img.pix| == |img.pix|
                      && r.value.img.stegosize == Add32(img.stegosize, r.value.n)
    ensures r.Ok? && r.value.n == 0 ==> r.value.img == img && r.value.writer == w
    ensures r.Ok? && r.value.n > 0 ==> ReadSize(img.layout, r.value.img.pix) == Ok(r.value.img.stegosize)
  {
    var (n, eof) := Accepted(img, buf);
    match WriteLoop(img.layout, img.pix, w.index, buf[..n])
    case Err(e) => Err(e)
    case Ok(c) =>
      if n == 0 then Ok(Written(img.(pix := c.pix), ImageWriter(c.index), n, eof))
      else
        var size := Add32(img.stegosize, n);
        match WriteSize(img.layout, c.pix, size)
        case Err(e) => Err(e)
        case Ok(pix) =>
          HeaderRoundTrip(img.layout, c.pix, size);
          Ok(Written(img.(stegosize := size, pix := pix), ImageWriter(c.index), n, eof))
  }

  /** The outcome of a Read: the reader afterwards, the caller's buffer
      afterwards, the count returned and whether io.EOF came with it. */
  datatype ReadOut = ReadOut(reader: ImageReader, buf: seq<bv8>, n: uint32, eof: bool)

  /** What a Read accepts: `stegosize - bytesread` (uint32) cut to the buffer. */
  function Requested(img: Image, r: ImageReader, buf: seq<bv8>): (uint32, bool)
  {
    Clamp(Sub32(img.stegosize, r.bytesread), |buf|)
  }

  /** imageReader.readRGBA: decodes the accepted count of bytes into the
      front of buf, advances the cursor and adds the count to bytesread. Run
      on a Gray image, with the Gray stride, it is readGray without the
      defect ReadGray models. */
  function ReadStream(img: Image, r: ImageReader, buf: seq<bv8>): (o: Result<ReadOut>)
    ensures Sub32(img.stegosize, r.bytesread) == 0 ==> o == Ok(ReadOut(r, buf, 0, true))
    ensures o.Ok? ==> o.value.n == Requested(img, r, buf).0 && o.value.eof == Requested(img, r, buf).1
    ensures o.Ok? ==> |o.value.buf| == |buf| && o.value.buf[o.value.n..] == buf[o.value.n..]
    ensures o.Ok? ==> o.value.reader.bytesread == Add32(r.bytesread, o.value.n)
  {
    var (n, eof) := Requested(img, r, buf);
    match ReadLoop(img.layout, img.pix, r.index, n)
    case Err(e) => Err(e)
    case Ok(x) =>
      Ok(ReadOut(ImageReader(x.index, Add32(r.bytesread, n)), x.bytes + buf[n..], n, eof))
  }

  /** imageReader.readGray as written: its loop bound `sz` loses 8 at every
      iteration (ReadGrayLoop), and the corrupted bound is what gets added to
      bytesread and returned. */
  function ReadGray(img: Image, r: ImageReader, buf: seq<bv8>): (o: Result<ReadOut>)
    ensures Sub32(img.stegosize, r.bytesread) == 0 ==> o == Ok(ReadOut(r, buf, 0, true))
    ensures o.Ok? ==> o.value.eof == Requested(img, r, buf).1
    ensures o.Ok? ==> |o.value.buf| == |buf|
    ensures o.Ok? ==> o.value.reader.bytesread == Add32(r.bytesread, o.value.n)
  {
    var (sz, eof) := Requested(img, r, buf);
    match ReadGrayLoop(img.pix, r.index, 0, sz, |buf|)
    case Err(e) => Err(e)
    case Ok(g) =>
      assert sz == 0 ==> g.bytes + buf[|g.bytes|..] == buf;
      Ok(ReadOut(ImageReader(g.index, Add32(r.bytesread, g.sz)), g.bytes + buf[|g.bytes|..], g.sz, eof))
  }

  /** imageReader.Read: readRGBA or readGray by colour type. Neither touches
      the image. */
  function Read(img: Image, r: ImageReader, buf: seq<bv8>): (o: Result<ReadOut>)
    ensures Sub32(img.stegosize, r.bytesread) == 0 ==> o == Ok(ReadOut(r, buf, 0, true))
    ensures o.Ok? ==> |o.value.buf| == |buf| && o.value.reader.bytesread == Add32(r.bytesread, o.value.n)
  {
    match img.layout
    case RGBA => ReadStream(img, r, buf)
    case Gray => ReadGray(img, r, buf)
  }
}

=== FILE: layout.dfy ===
/** Channel layouts and the bit cursor. The eligible stream is the pixel buffer
    with every excluded channel byte removed; logical position L of that stream
    lives at raw buffer index Raw(layout, L). The streaming reader and writer
    do not compute Raw: they walk the buffer with the `switch i & 3` state
    machine modelled by Step, and the lemmas here show the two agree. */
module Layouts {

  /** COLOR_RGBA (4 channel bytes per pixel, the 4th is alpha and never
      carries payload) and COLOR_GRAY (1 channel byte per pixel). */
  datatype Layout = RGBA | Gray

  /** Channel bytes per pixel in the buffer. */
  function BytesPerPixel(l: Layout): nat
  {
    match l
    case RGBA => 4
    case Gray => 1
  }

  /** The `bpp` of NewImage: payload bits per pixel. */
  function BitsPerPixel(l: Layout): nat
  {
    match l
    case RGBA => 3
    case Gray => 1
  }

  /** Whether raw index j carries payload bits: alpha bytes (j ≡ 3 mod 4) do not. */
  predicate Eligible(l: Layout, j: nat)
  {
    l.Gray? || j % 4 != 3
  }

  /** Raw index of logical position L: L + L / 3 for RGBA, where three of
      every four bytes are eligible; L for Gray. */
  function Raw(l: Layout, L: nat): nat
  {
    match l
    case RGBA => L + L / 3
    case Gray => L
  }

  /** Logical position of an eligible raw index: j - j / 4 for RGBA. */
  function Logical(l: Layout, j: nat): nat
  {
    match l
    case RGBA => j - j / 4
    case Gray => j
  }

  /** Raw maps logical positions onto eligible indices, and Logical undoes it. */
  lemma {:induction false} RawIsEligible(l: Layout, L: nat)
    ensures Eligible(l, Raw(l, L))
    ensures Logical(l, Raw(l, L)) == L
    ensures L <= Raw(l, L)
  {
    if l.RGBA? {
      var q, r := L / 3, L % 3;
      assert Raw(l, L) == 4 * q + r;
      assert (4 * q + r) / 4 == q;
    }
  }

  /** Every eligible raw index is reached by Raw: the skip pattern leaves no
      eligible byte out. */
  lemma {:induction false} LogicalIsInverse(l: Layout, j: nat)
    requires Eligible(l, j)
    ensures Raw(l, Logical(l, j)) == j
  {
    if l.RGBA? {
      var q, r := j / 4, j % 4;
      assert Logical(l, j) == 3 * q + r;
      assert (3 * q + r) / 3 == q;
    }
  }

  /** The raw indices of the n logical positions from p, in order. */
  function Positions(l: Layout, p: nat, n: nat): (s: seq<int>)
    ensures |s| == n
    ensures forall t :: 0 <= t < n ==> s[t] == Raw(l, p + t)
  {
    seq(n, (t: nat) => Raw(l, p + t))
  }

  /** Raw is strictly increasing, so the cursor only moves forward. */
  lemma {:induction false} RawIsIncreasing(l: Layout, a: nat, b: nat)
    requires a < b
    ensures Raw(l, a) < Raw(l, b)
  {
    if l.RGBA? {
      assert a / 3 <= b / 3;
    }
  }

  lemma {:induction false} RawIsMonotone(l: Layout, a: nat, b: nat)
    requires a <= b
    ensures Raw(l, a) <= Raw(l, b)
  {
    if a < b {
      RawIsIncreasing(l, a, b);
    }
  }

  /** Within a window of n logical positions from p, the last raw index is
      the largest. */
  lemma {:induction false} RawWindowBelow(l: Layout, p: nat, n: nat)
    requires n > 0
    ensures forall L :: p <= L < p + n ==> Raw(l, L) <= Raw(l, p + n - 1)
  {
    forall L | p <= L < p + n
      ensures Raw(l, L) <= Raw(l, p + n - 1)
    {
      RawIsMonotone(l, L, p + n - 1);
    }
  }

  /** Whether the `count` bytes from logical position p fit in a buffer of
      `size` bytes: every logical position they occupy has its raw index
      inside it. */
  predicate Fits(l: Layout, size: nat, p: nat, count: nat)
  {
    forall L :: p <= L < p + 8 * count ==> Raw(l, L) < size
  }

  /** Raw grows with L, so a window fits exactly when its last position does. */
  lemma {:induction false} FitsByLast(l: Layout, size: nat, p: nat, count: nat)
    ensures Fits(l, size, p, count) <==> count == 0 || Raw(l, p + 8 * count - 1) < size
  {
    if count > 0 {
      RawWindowBelow(l, p, 8 * count);
    }
  }

  /** A window that fits contains every window of whole bytes inside it. */
  lemma {:induction false} FitsWithin(l: Layout, size: nat, p: nat, count: nat, t: nat, n: nat)
    requires Fits(l, size, p, count)
    requires t + n <= count
    ensures Fits(l, size, p + 8 * t, n)
  {
  }

  /** A window of count > 0 bytes fits exactly when its first byte does and
      the rest, from eight positions on, does too. */
  lemma {:induction false} FitsCons(l: Layout, size: nat, p: nat, count: nat)
    requires count > 0
    ensures Fits(l, size, p, count) <==> Fits(l, size, p, 1) && Fits(l, size, p + 8, count - 1)
  {
    FitsByLast(l, size, p, count);
    FitsByLast(l, size, p, 1);
    FitsByLast(l, size, p + 8, count - 1);
    RawIsMonotone(l, p + 7, p + 8 * count - 1);
  }

  /** Two windows that fit side by side make one window that fits. */
  lemma {:induction false} FitsJoin(l: Layout, size: nat, p: nat, m: nat, n: nat)
    requires Fits(l, size, p, m) && Fits(l, size, p + 8 * m, n)
    ensures Fits(l, size, p, m + n)
  {
    forall L | p <= L < p + 8 * (m + n)
      ensures Raw(l, L) < size
    {
      if L >= p + 8 * m {
        assert p + 8 * m <= L < p + 8 * m + 8 * n;
      }
    }
  }

  /** A list of raw indices in strictly increasing order. */
  predicate Increasing(s: seq<int>)
  {
    forall a, b :: 0 <= a < b < |s| ==> s[a] < s[b]
  }

  /** The raw indices of consecutive logical positions increase. */
  lemma {:induction false} PositionsIncrease(l: Layout, p: nat, n: nat)
    ensures Increasing(Positions(l, p, n))
  {
    var s := Positions(l, p, n);
    forall a, b | 0 <= a < b < n
      ensures s[a] < s[b]
    {
      RawIsIncreasing(l, p + a, p + b);
    }
  }

  /** In the buffer of an image of `pixels` pixels, logical position L exists
      exactly when it is below the number of eligible bits. */
  lemma {:induction false} RawInBuffer(l: Layout, pixels: nat, L: nat)
    ensures Raw(l, L) < BytesPerPixel(l) * pixels <==> L < BitsPerPixel(l) * pixels
  {
    if l.RGBA? {
      var q := L / 3;
      assert 3 * q <= L < 3 * q + 3;
      if L < 3 * pixels {
        assert q < pixels;
      } else {
        assert q >= pixels;
      }
    }
  }

  /** c bytes after the header fit in the buffer of an image of `pixels`
      pixels exactly when header and payload together need no more bits than
      the image has eligible. */
  lemma {:induction false} PayloadFits(l: Layout, pixels: nat, c: nat)
    requires c > 0
    ensures Fits(l, BytesPerPixel(l) * pixels, HeaderBits, c) <==> HeaderBits + 8 * c <= BitsPerPixel(l) * pixels
  {
    FitsByLast(l, BytesPerPixel(l) * pixels, HeaderBits, c);
    RawInBuffer(l, pixels, HeaderBits + 8 * c - 1);
  }

  /** The index an access at cursor value i really uses: an RGBA cursor resting
      on an alpha byte moves past it first (`case 3: i++; fallthrough`). */
  function Normalize(l: Layout, i: nat): nat
  {
    if l.RGBA? && i % 4 == 3 then i + 1 else i
  }

  /** The header occupies logical positions 0..31. */
  const HeaderBits: nat := 32

  /** The raw indices the header bits go to, in bit order: the first 32
      logical positions under Raw. UnrolledHeaderIndices shows these are
      the indices the unrolled code names. */
  function HeaderIndices(l: Layout): seq<int>
  {
    Positions(l, 0, HeaderBits)
  }

  /** The raw indices writeSizeRGBA / readSizeRGBA and writeSizeGray /
      readSizeGray spell out one statement per bit, in bit order. */
  function UnrolledHeader(l: Layout): seq<int>
  {
    match l
    case RGBA =>
      [0, 1, 2, 4, 5, 6, 8, 9, 10, 12, 13, 14, 16, 17, 18, 20,
       21, 22, 24, 25, 26, 28, 29, 30, 32, 33, 34, 36, 37, 38, 40, 41]
    case Gray =>
      [0, 1, 2, 3, 4, 5, 6, 7, 8, 9, 10, 11, 12, 13, 14, 15,
       16, 17, 18, 19, 20, 21, 22, 23, 24, 25, 26, 27, 28, 29, 30, 31]
  }

  /** The number of buffer bytes the header needs: one past its last index. */
  function HeaderSpan(l: Layout): nat
  {
    match l
    case RGBA => 42
    case Gray => 32
  }

  /** The cursor value Reader and Writer start the payload at. */
  function PayloadStart(l: Layout): nat
  {
    match l
    case RGBA => 42
    case Gray => 32
  }

  /** The unrolled header lists are the first 32 logical positions under
      Raw: the skip-every-fourth rule reproduces them exactly. */
  lemma {:induction false} UnrolledHeaderIndices(l: Layout)
    ensures UnrolledHeader(l) == HeaderIndices(l)
  {
    if l.RGBA? {
      assert Positions(l, 0, HeaderBits)
          == [Raw(l, 0), Raw(l, 1), Raw(l, 2), Raw(l, 3), Raw(l, 4), Raw(l, 5), Raw(l, 6), Raw(l, 7),
              Raw(l, 8), Raw(l, 9), Raw(l, 10), Raw(l, 11), Raw(l, 12), Raw(l, 13), Raw(l, 14), Raw(l, 15),
              Raw(l, 16), Raw(l, 17), Raw(l, 18), Raw(l, 19), Raw(l, 20), Raw(l, 21), Raw(l, 22), Raw(l, 23),
              Raw(l, 24), Raw(l, 25), Raw(l, 26), Raw(l, 27), Raw(l, 28), Raw(l, 29), Raw(l, 30), Raw(l, 31)];
    } else {
      assert Positions(l, 0, HeaderBits) == UnrolledHeader(l);
    }
  }

  /** The header ends just below the payload start, which is Raw(32). */
  lemma {:induction false} HeaderSpanIsRaw(l: Layout)
    ensures HeaderSpan(l) == Raw(l, HeaderBits - 1) + 1
    ensures PayloadStart(l) == Raw(l, HeaderBits) == HeaderSpan(l)
  {
  }

  /** Every header index lies below HeaderSpan. */
  lemma {:induction false} HeaderIndicesFit(l: Layout)
    ensures |HeaderIndices(l)| == HeaderBits
    ensures forall k :: 0 <= k < HeaderBits ==> 0 <= HeaderIndices(l)[k] == Raw(l, k) < HeaderSpan(l)
  {
    HeaderSpanIsRaw(l);
    RawWindowBelow(l, 0, HeaderBits);
  }

  /** One byte's worth of cursor movement: the eight raw indices visited, bit
      0 first, and the cursor value left behind. */
  datatype Stride = Stride(visited: seq<int>, next: nat)

  /** The per-byte state machine of readRGBA / writeRGBA (`switch i & 3`) and
      the straight walk of readGray / writeGray. */
  function Step(l: Layout, i: nat): (s: Stride)
    ensures |s.visited| == 8
    ensures forall k :: 0 <= k < 8 ==> 0 <= s.visited[k] <= s.visited[7]
  {
    match l
    case Gray => Stride([i, i + 1, i + 2, i + 3, i + 4, i + 5, i + 6, i + 7], i + 8)
    case RGBA =>
      var i := if i % 4 == 3 then i + 1 else i;
      if i % 4 == 0 then
        Stride([i, i + 1, i + 2, i + 4, i + 5, i + 6, i + 8, i + 9], i + 10)
      else if i % 4 == 1 then
        Stride([i, i + 1, i + 3, i + 4, i + 5, i + 7, i + 8, i + 9], i + 10)
      else
        Stride([i, i + 2, i + 3, i + 4, i + 6, i + 7, i + 8, i + 10], i + 11)
  }

  /** The skip mapping: a cursor standing at logical position p visits exactly
      Raw(p), ..., Raw(p + 7). The cursor it leaves is Raw(p + 8), or the
      alpha byte just before it (after the `i&3 == 1` arm), which the next
      stride's `case 3` skips; either way it normalises to Raw(p + 8). */
  lemma {:induction false} StepVisitsRaw(l: Layout, i: nat, p: nat)
    requires Normalize(l, i) == Raw(l, p)
    ensures Step(l, i).visited == Positions(l, p, 8)
    ensures Normalize(l, Step(l, i).next) == Raw(l, p + 8)
  {
    if l.RGBA? {
      var q, r := p / 3, p % 3;
      assert Normalize(l, i) == 4 * q + r;
      if r == 0 {
        StepFromResidue0(i, q);
      } else if r == 1 {
        StepFromResidue1(i, q);
      } else {
        StepFromResidue2(i, q);
      }
    } else {
      assert Positions(l, p, 8) == Step(l, i).visited;
    }
  }

  lemma {:induction false} StepFromResidue0(i: nat, q: nat)
    requires Normalize(RGBA, i) == 4 * q
    ensures Step(RGBA, i).visited == Positions(RGBA, 3 * q, 8)
    ensures Normalize(RGBA, Step(RGBA, i).next) == Raw(RGBA, 3 * q + 8)
  {
    var n := 4 * q;
    StepOfResidue0(i, n);
    WindowFromResidue0(q, n);
    PositionsOfEight(RGBA, 3 * q);
  }

  /** The stride the `switch` takes on a normalised cursor n with n & 3 == 0. */
  lemma {:induction false} StepOfResidue0(i: nat, n: nat)
    requires Normalize(RGBA, i) == n && n % 4 == 0
    ensures Step(RGBA, i) == Stride([n, n + 1, n + 2, n + 4, n + 5, n + 6, n + 8, n + 9], n + 10)
  {
  }

  lemma {:induction false} StepFromResidue1(i: nat, q: nat)
    requires Normalize(RGBA, i) == 4 * q + 1
    ensures Step(RGBA, i).visited == Positions(RGBA, 3 * q + 1, 8)
    ensures Normalize(RGBA, Step(RGBA, i).next) == Raw(RGBA, 3 * q + 9)
  {
    var n := 4 * q + 1;
    StepOfResidue1(i, n);
    WindowFromResidue1(q, n);
    PositionsOfEight(RGBA, 3 * q + 1);
  }

  /** The stride the `switch` takes on a normalised cursor n with n & 3 == 1. */
  lemma {:induction false} StepOfResidue1(i: nat, n: nat)
    requires Normalize(RGBA, i) == n && n % 4 == 1
    ensures Step(RGBA, i) == Stride([n, n + 1, n + 3, n + 4, n + 5, n + 7, n + 8, n + 9], n + 10)
  {
  }

  lemma {:induction false} StepFromResidue2(i: nat, q: nat)
    requires Normalize(RGBA, i) == 4 * q + 2
    ensures Step(RGBA, i).visited == Positions(RGBA, 3 * q + 2, 8)
    ensures Normalize(RGBA, Step(RGBA, i).next) == Raw(RGBA, 3 * q + 10)
  {
    var n := 4 * q + 2;
    StepOfResidue2(i, n);
    WindowFromResidue2(q, n);
    PositionsOfEight(RGBA, 3 * q + 2);
  }

  /** The stride the `switch` takes on a normalised cursor n with n & 3 == 2. */
  lemma {:induction false} StepOfResidue2(i: nat, n: nat)
    requires Normalize(RGBA, i) == n && n % 4 == 2
    ensures Step(RGBA, i) == Stride([n, n + 2, n + 3, n + 4, n + 6, n + 7, n + 8, n + 10], n + 11)
  {
  }

  /** The eight raw indices of one byte's window, spelled out. */
  lemma {:induction false} PositionsOfEight(l: Layout, p: nat)
    ensures Positions(l, p, 8)
         == [Raw(l, p), Raw(l, p + 1), Raw(l, p + 2), Raw(l, p + 3),
             Raw(l, p + 4), Raw(l, p + 5), Raw(l, p + 6), Raw(l, p + 7)]
  {
  }

  /** The window of a byte starting on the first eligible byte of a pixel,
      and where the next one starts. */
  lemma {:induction false} WindowFromResidue0(q: nat, n: nat)
    requires n == 4 * q
    ensures [Raw(RGBA, 3 * q), Raw(RGBA, 3 * q + 1), Raw(RGBA, 3 * q + 2), Raw(RGBA, 3 * q + 3),
             Raw(RGBA, 3 * q + 4), Raw(RGBA, 3 * q + 5), Raw(RGBA, 3 * q + 6), Raw(RGBA, 3 * q + 7)]
         == [n, n + 1, n + 2, n + 4, n + 5, n + 6, n + 8, n + 9]
    ensures Normalize(RGBA, n + 10) == Raw(RGBA, 3 * q + 8)
  {
    var p := 3 * q;
    assert Raw(RGBA, p) == n;
    assert Raw(RGBA, p + 1) == n + 1;
    assert Raw(RGBA, p + 2) == n + 2;
    assert Raw(RGBA, p + 3) == n + 4;
    assert Raw(RGBA, p + 4) == n + 5;
    assert Raw(RGBA, p + 5) == n + 6;
    assert Raw(RGBA, p + 6) == n + 8;
    assert Raw(RGBA, p + 7) == n + 9;
    assert Raw(RGBA, p + 8) == n + 10;
  }

  /** The same from the second eligible byte of a pixel. */
  lemma {:induction false} WindowFromResidue1(q: nat, n: nat)
    requires n == 4 * q + 1
    ensures [Raw(RGBA, 3 * q + 1), Raw(RGBA, 3 * q + 2), Raw(RGBA, 3 * q + 3), Raw(RGBA, 3 * q + 4),
             Raw(RGBA, 3 * q + 5), Raw(RGBA, 3 * q + 6), Raw(RGBA, 3 * q + 7), Raw(RGBA, 3 * q + 8)]
         == [n, n + 1, n + 3, n + 4, n + 5, n + 7, n + 8, n + 9]
    ensures Normalize(RGBA, n + 10) == Raw(RGBA, 3 * q + 9)
  {
    var p := 3 * q + 1;
    assert Raw(RGBA, p) == n;
    assert Raw(RGBA, p + 1) == n + 1;
    assert Raw(RGBA, p + 2) == n + 3;
    assert Raw(RGBA, p + 3) == n + 4;
    assert Raw(RGBA, p + 4) == n + 5;
    assert Raw(RGBA, p + 5) == n + 7;
    assert Raw(RGBA, p + 6) == n + 8;
    assert Raw(RGBA, p + 7) == n + 9;
    assert Raw(RGBA, p + 8) == n + 11;
  }

  /** The same from the third eligible byte of a pixel. */
  lemma {:induction false} WindowFromResidue2(q: nat, n: nat)
    requires n == 4 * q + 2
    ensures [Raw(RGBA, 3 * q + 2), Raw(RGBA, 3 * q + 3), Raw(RGBA, 3 * q + 4), Raw(RGBA, 3 * q + 5),
             Raw(RGBA, 3 * q + 6), Raw(RGBA, 3 * q + 7), Raw(RGBA, 3 * q + 8), Raw(RGBA, 3 * q + 9)]
         == [n, n + 2, n + 3, n + 4, n + 6, n + 7, n + 8, n + 10]
    ensures Normalize(RGBA, n + 11) == Raw(RGBA, 3 * q + 10)
  {
    var p := 3 * q + 2;
    assert Raw(RGBA, p) == n;
    assert Raw(RGBA, p + 1) == n + 2;
    assert Raw(RGBA, p + 2) == n + 3;
    assert Raw(RGBA, p + 3) == n + 4;
    assert Raw(RGBA, p + 4) == n + 6;
    assert Raw(RGBA, p + 5) == n + 7;
    assert Raw(RGBA, p + 6) == n + 8;
    assert Raw(RGBA, p + 7) == n + 10;
    assert Raw(RGBA, p + 8) == n + 11;
  }

  /** The visited indices are strictly increasing, so the last one is the
      largest and no index is visited twice. */
  lemma {:induction false} StepIsIncreasing(l: Layout, i: nat)
    ensures Increasing(Step(l, i).visited)
    ensures Normalize(l, i) == Step(l, i).visited[0]
    ensures Step(l, i).visited[7] < Normalize(l, Step(l, i).next)
  {
    if l.RGBA? {
      var n := Normalize(l, i);
      if n % 4 == 0 {
        StepOfResidue0(i, n);
      } else if n % 4 == 1 {
        StepOfResidue1(i, n);
      } else {
        StepOfResidue2(i, n);
      }
    }
  }
}

=== FILE: payload.dfy ===
/** The payload loops of imageWriter.writeRGBA / writeGray and
    imageReader.readRGBA / readGray, and the reference definitions they are
    proved against: EmbedSpec and ExtractSpec say where the bits of a byte
    string go in terms of logical positions and Raw, with no state machine. */
module Payload {
  import opened Bits
  import opened Layouts
  import opened Results
  import opened Header

  /** Bit t of a byte string in storage order: bit t % 8 of byte t / 8. */
  function PayloadBit(data: seq<bv8>, t: nat): (r: bv8)
    requires t < 8 * |data|
    ensures r <= 1
  {
    Bit(data[t / 8], t % 8)
  }

  /** Whether raw index j is an eligible byte at a logical position in
      [p, p + width). */
  predicate InWindow(l: Layout, j: nat, p: nat, width: nat)
  {
    Eligible(l, j) && p <= Logical(l, j) < p + width
  }

  /** Reference definition of embedding `data` from logical position p: bit t
      of data replaces bit 0 of the eligible byte at logical position p + t;
      every other byte, and bits 1-7 everywhere, stay as they were. */
  function EmbedSpec(l: Layout, pix: seq<bv8>, p: nat, data: seq<bv8>): (r: seq<bv8>)
    ensures |r| == |pix|
  {
    seq(|pix|, (j: nat) requires j < |pix| =>
      if InWindow(l, j, p, 8 * |data|)
      then WithLsb(pix[j], PayloadBit(data, Logical(l, j) - p))
      else pix[j])
  }

  /** Byte j of an embedding, as the definition gives it. */
  lemma {:induction false} EmbedSpecAt(l: Layout, pix: seq<bv8>, p: nat, data: seq<bv8>, j: nat)
    requires j < |pix|
    ensures EmbedSpec(l, pix, p, data)[j]
         == if InWindow(l, j, p, 8 * |data|)
            then WithLsb(pix[j], PayloadBit(data, Logical(l, j) - p))
            else pix[j]
  {
  }

  /** The byte decoded from the eligible bytes at logical positions L..L+7. */
  function ByteAt(l: Layout, pix: seq<bv8>, L: nat): bv8
    requires Fits(l, |pix|, L, 1)
  {
    PackBits(Gather(pix, Positions(l, L, 8)))
  }

  /** Reference definition of extraction: byte t is decoded from logical
      positions p + 8t .. p + 8t + 7. */
  function ExtractSpec(l: Layout, pix: seq<bv8>, p: nat, count: nat): (r: seq<bv8>)
    requires Fits(l, |pix|, p, count)
    ensures |r| == count
  {
    seq(count, (t: nat) requires t < count =>
      FitsWithin(l, |pix|, p, count, t, 1);
      ByteAt(l, pix, p + 8 * t))
  }

  // ---------------------------------------------------------------------------
  // The loops as the source runs them

  /** Buffer and cursor after a write loop. */
  datatype Cursor = Cursor(pix: seq<bv8>, index: nat)

  /** The body of writeRGBA / writeGray after clamping: each byte's eight bits
      go, bit 0 first, to the raw indices the per-layout stride visits. An
      index past the end of the buffer panics. */
  function WriteLoop(l: Layout, pix: seq<bv8>, i: nat, data: seq<bv8>): (r: Result<Cursor>)
    ensures r.Ok? ==> |r.value.pix| == |pix|
    decreases |data|
  {
    if |data| == 0 then Ok(Cursor(pix, i))
    else
      var s := Step(l, i);
      if |pix| <= s.visited[7] then Err(IndexOutOfRange)
      else
        WriteLoop(l, PutLsbs(pix, s.visited, ByteBits(data[0])), s.next, data[1..])
  }

  /** Bytes decoded by a read loop and the cursor left behind. */
  datatype Extracted = Extracted(bytes: seq<bv8>, index: nat)

  /** The body of readRGBA after clamping: byte j is decoded from the eight raw
      indices the stride visits (PackBits is the unrolled `b |= pix[k]&1 << n`
      chain, by PackByteIsPackBits). Run with the Gray stride it is the Gray read
      loop without the defect of readGray (see ReadGrayLoop). */
  function ReadLoop(l: Layout, pix: seq<bv8>, i: nat, count: nat): (r: Result<Extracted>)
    ensures r.Ok? ==> |r.value.bytes| == count
    decreases count
  {
    if count == 0 then Ok(Extracted([], i))
    else
      var s := Step(l, i);
      if |pix| <= s.visited[7] then Err(IndexOutOfRange)
      else
        var b := PackBits(Gather(pix, s.visited));
        match ReadLoop(l, pix, s.next, count - 1)
        case Err(e) => Err(e)
        case Ok(rest) => Ok(Extracted([b] + rest.bytes, rest.index))
  }

  /** State of readGray's loop when it stops: the bytes stored into the
      caller's buffer, the cursor, and the (corrupted) bound `sz`. */
  datatype GrayScan = GrayScan(bytes: seq<bv8>, index: nat, sz: uint32)

  /** readGray's loop exactly as written, from iteration j on: `for ; j < sz;
      j++` with `sz -= 8` (wrapping uint32) at the end of every iteration.
      Each iteration decodes pix[i..i+8] into buf[j] (the same PackBits
      chain as ReadLoop); pix and buf accesses
      past their ends panic. The loop ends because j only grows and stays
      below 2^32. */
  function ReadGrayLoop(pix: seq<bv8>, i: nat, j: uint32, sz: uint32, bufLen: nat): (r: Result<GrayScan>)
    ensures r.Ok? ==> r.value.sz <= j + |r.value.bytes|
    ensures r.Ok? ==> r.value.index == i + 8 * |r.value.bytes|
    ensures r.Ok? && |r.value.bytes| > 0 ==> r.value.index <= |pix| && j + |r.value.bytes| <= bufLen
    decreases Modulus32 - j
  {
    if sz <= j then Ok(GrayScan([], i, sz))
    else if |pix| <= i + 7 then Err(IndexOutOfRange)
    else if bufLen <= j then Err(IndexOutOfRange)
    else
      var b := PackBits(pix[i .. i + 8]);
      match ReadGrayLoop(pix, i + 8, j + 1, Sub32(sz, 8), bufLen)
      case Err(e) => Err(e)
      case Ok(rest) => Ok(GrayScan([b] + rest.bytes, rest.index, rest.sz))
  }

  // ---------------------------------------------------------------------------
  // The loops meet the reference definitions

  /** Whether the first stride from logical position p fits is whether its
      last raw index does. */
  lemma {:induction false} StepFits(l: Layout, i: nat, p: nat, size: nat)
    requires Normalize(l, i) == Raw(l, p)
    ensures Fits(l, size, p, 1) <==> Step(l, i).visited[7] < size
  {
    StepVisitsRaw(l, i, p);
    FitsByLast(l, size, p, 1);
  }

  /** One iteration of the write loop: a first byte that fits is embedded by
      the first stride, and the loop carries on from eight positions further
      on with the rest. */
  lemma {:induction false} WriteStep(l: Layout, pix: seq<bv8>, i: nat, p: nat, data: seq<bv8>)
    returns (pix1: seq<bv8>)
    requires Normalize(l, i) == Raw(l, p)
    requires |data| > 0 && Fits(l, |pix|, p, 1)
    ensures pix1 == EmbedSpec(l, pix, p, [data[0]])
    ensures Normalize(l, Step(l, i).next) == Raw(l, p + 8)
    ensures WriteLoop(l, pix, i, data) == WriteLoop(l, pix1, Step(l, i).next, data[1..])
  {
    StepVisitsRaw(l, i, p);
    StepFits(l, i, p, |pix|);
    pix1 := PutLsbs(pix, Step(l, i).visited, ByteBits(data[0]));
    StrideIsEmbed(l, pix, p, data[0]);
  }

  /** The write loop, started with its cursor at logical position p, fails
      exactly when some bit would land past the end of the buffer. */
  lemma {:induction false} WriteLoopOk(l: Layout, pix: seq<bv8>, i: nat, p: nat, data: seq<bv8>)
    requires Normalize(l, i) == Raw(l, p)
    ensures WriteLoop(l, pix, i, data).Ok? <==> Fits(l, |pix|, p, |data|)
    decreases |data|
  {
    if |data| > 0 {
      StepFits(l, i, p, |pix|);
      FitsCons(l, |pix|, p, |data|);
      if Fits(l, |pix|, p, 1) {
        var pix1 := WriteStep(l, pix, i, p, data);
        WriteLoopOk(l, pix1, Step(l, i).next, p + 8, data[1..]);
      }
    }
  }

  /** A write loop that succeeds produces EmbedSpec; WriteLoopCursor says
      where it leaves its cursor. */
  lemma {:induction false} WriteLoopMeetsSpec(l: Layout, pix: seq<bv8>, i: nat, p: nat, data: seq<bv8>)
    requires Normalize(l, i) == Raw(l, p)
    requires WriteLoop(l, pix, i, data).Ok?
    ensures WriteLoop(l, pix, i, data).value.pix == EmbedSpec(l, pix, p, data)
    decreases |data|
  {
    if |data| == 0 {
      assert EmbedSpec(l, pix, p, data) == pix;
    } else {
      StepFits(l, i, p, |pix|);
      var pix1 := WriteStep(l, pix, i, p, data);
      WriteLoopMeetsSpec(l, pix1, Step(l, i).next, p + 8, data[1..]);
      EmbedSplit(l, pix, p, data);
    }
  }

  /** Where a successful write loop leaves its cursor. */
  lemma {:induction false} WriteLoopCursor(l: Layout, pix: seq<bv8>, i: nat, p: nat, data: seq<bv8>)
    requires Normalize(l, i) == Raw(l, p)
    requires WriteLoop(l, pix, i, data).Ok?
    ensures Normalize(l, WriteLoop(l, pix, i, data).value.index) == Raw(l, p + 8 * |data|)
    decreases |data|
  {
    if |data| > 0 {
      StepFits(l, i, p, |pix|);
      var pix1 := WriteStep(l, pix, i, p, data);
      WriteLoopCursor(l, pix1, Step(l, i).next, p + 8, data[1..]);
      assert p + 8 + 8 * |data[1..]| == p + 8 * |data|;
    }
  }

  /** One stride of the write loop embeds one byte. */
  lemma {:induction false} StrideIsEmbed(l: Layout, pix: seq<bv8>, p: nat, b: bv8)
    requires Fits(l, |pix|, p, 1)
    ensures PutLsbs(pix, Positions(l, p, 8), ByteBits(b)) == EmbedSpec(l, pix, p, [b])
  {
    forall j | 0 <= j < |pix|
      ensures PutLsbs(pix, Positions(l, p, 8), ByteBits(b))[j] == EmbedSpec(l, pix, p, [b])[j]
    {
      StrideIsEmbedAt(l, pix, p, b, j);
    }
  }

  lemma {:induction false} StrideIsEmbedAt(l: Layout, pix: seq<bv8>, p: nat, b: bv8, j: nat)
    requires Fits(l, |pix|, p, 1)
    requires j < |pix|
    ensures PutLsbs(pix, Positions(l, p, 8), ByteBits(b))[j] == EmbedSpec(l, pix, p, [b])[j]
  {
    EmbedSpecAt(l, pix, p, [b], j);
    if InWindow(l, j, p, 8) {
      var L := Logical(l, j);
      LogicalIsInverse(l, j);
      StrideWrites(l, pix, p, b, L);
      assert PayloadBit([b], L - p) == Bit(b, L - p);
    } else {
      StrideKeeps(l, pix, p, b, j);
    }
  }

  /** The stride for one byte from logical position p sets bit 0 of the raw
      byte at each logical position L of its window to bit L - p of the
      byte... */
  lemma {:induction false} StrideWrites(l: Layout, pix: seq<bv8>, p: nat, b: bv8, L: nat)
    requires Fits(l, |pix|, p, 1)
    requires p <= L < p + 8
    ensures PutLsbs(pix, Positions(l, p, 8), ByteBits(b))[Raw(l, L)]
         == WithLsb(pix[Raw(l, L)], Bit(b, L - p))
  {
    PositionsIncrease(l, p, 8);
    var idx, bits := Positions(l, p, 8), ByteBits(b);
    assert idx[L - p] == Raw(l, L);
    assert bits[L - p] == Bit(b, L - p);
    PutLsbsSets(pix, idx, bits, L - p);
  }

  /** ... and leaves every byte outside the stride's window alone. */
  lemma {:induction false} StrideKeeps(l: Layout, pix: seq<bv8>, p: nat, b: bv8, j: nat)
    requires Fits(l, |pix|, p, 1)
    requires j < |pix| && !InWindow(l, j, p, 8)
    ensures PutLsbs(pix, Positions(l, p, 8), ByteBits(b))[j] == pix[j]
  {
    var idx := Positions(l, p, 8);
    forall t | 0 <= t < 8
      ensures idx[t] != j
    {
      RawIsEligible(l, p + t);
    }
    PutLsbsKeeps(pix, idx, ByteBits(b), j);
  }

  /** Embedding a byte string is embedding its first byte, then the rest from
      eight positions further on. */
  lemma {:induction false} EmbedSplit(l: Layout, pix: seq<bv8>, p: nat, data: seq<bv8>)
    requires |data| > 0
    ensures EmbedSpec(l, EmbedSpec(l, pix, p, [data[0]]), p + 8, data[1..]) == EmbedSpec(l, pix, p, data)
  {
    forall j | 0 <= j < |pix|
      ensures EmbedSpec(l, EmbedSpec(l, pix, p, [data[0]]), p + 8, data[1..])[j]
           == EmbedSpec(l, pix, p, data)[j]
    {
      EmbedSplitAt(l, pix, p, data, j);
    }
  }

  lemma {:induction false} EmbedSplitAt(l: Layout, pix: seq<bv8>, p: nat, data: seq<bv8>, j: nat)
    requires |data| > 0
    requires j < |pix|
    ensures EmbedSpec(l, EmbedSpec(l, pix, p, [data[0]]), p + 8, data[1..])[j]
         == EmbedSpec(l, pix, p, data)[j]
  {
    var t := Logical(l, j) - p;
    if InWindow(l, j, p, 8) {
      assert PayloadBit([data[0]], t) == Bit(data[0], t) == PayloadBit(data, t);
    } else if InWindow(l, j, p, 8 * |data|) {
      PayloadBitShift(data, t);
    }
  }

  /** Dropping the first byte moves every later payload bit down by eight. */
  lemma {:induction false} PayloadBitShift(data: seq<bv8>, t: nat)
    requires 8 <= t < 8 * |data|
    ensures PayloadBit(data[1..], t - 8) == PayloadBit(data, t)
  {
    assert (t - 8) / 8 == t / 8 - 1 && (t - 8) % 8 == t % 8;
  }

  /** One iteration of the read loop: a first byte that fits is decoded from
      the first stride, and the loop carries on from eight positions further
      on. */
  lemma {:induction false} ReadStep(l: Layout, pix: seq<bv8>, i: nat, p: nat, count: nat)
    requires Normalize(l, i) == Raw(l, p)
    requires count > 0 && Fits(l, |pix|, p, 1)
    ensures Normalize(l, Step(l, i).next) == Raw(l, p + 8)
    ensures ReadLoop(l, pix, i, count).Ok? == ReadLoop(l, pix, Step(l, i).next, count - 1).Ok?
    ensures ReadLoop(l, pix, i, count).Ok? ==>
      ReadLoop(l, pix, i, count).value
        == Extracted([ByteAt(l, pix, p)] + ReadLoop(l, pix, Step(l, i).next, count - 1).value.bytes,
                     ReadLoop(l, pix, Step(l, i).next, count - 1).value.index)
  {
    StepVisitsRaw(l, i, p);
    StepFits(l, i, p, |pix|);
  }

  /** The read loop, started with its cursor at logical position p, fails
      exactly when some bit lies past the end of the buffer. */
  lemma {:induction false} ReadLoopOk(l: Layout, pix: seq<bv8>, i: nat, p: nat, count: nat)
    requires Normalize(l, i) == Raw(l, p)
    ensures ReadLoop(l, pix, i, count).Ok? <==> Fits(l, |pix|, p, count)
    decreases count
  {
    if count > 0 {
      StepFits(l, i, p, |pix|);
      FitsCons(l, |pix|, p, count);
      if Fits(l, |pix|, p, 1) {
        ReadStep(l, pix, i, p, count);
        ReadLoopOk(l, pix, Step(l, i).next, p + 8, count - 1);
      }
    }
  }

  /** A read loop over a window that fits succeeds and returns ExtractSpec
      (ReadLoopCursor says where it leaves its cursor). */
  lemma {:induction false} ReadLoopMeetsSpec(l: Layout, pix: seq<bv8>, i: nat, p: nat, count: nat)
    requires Normalize(l, i) == Raw(l, p)
    requires Fits(l, |pix|, p, count)
    ensures ReadLoop(l, pix, i, count).Ok?
    ensures ReadLoop(l, pix, i, count).value.bytes == ExtractSpec(l, pix, p, count)
    decreases count
  {
    ReadLoopOk(l, pix, i, p, count);
    if count > 0 {
      FitsCons(l, |pix|, p, count);
      ReadStep(l, pix, i, p, count);
      ReadLoopMeetsSpec(l, pix, Step(l, i).next, p + 8, count - 1);
      ExtractCons(l, pix, p, count);
    }
  }

  /** Where a successful read loop leaves its cursor. */
  lemma {:induction false} ReadLoopCursor(l: Layout, pix: seq<bv8>, i: nat, p: nat, count: nat)
    requires Normalize(l, i) == Raw(l, p)
    requires ReadLoop(l, pix, i, count).Ok?
    ensures Normalize(l, ReadLoop(l, pix, i, count).value.index) == Raw(l, p + 8 * count)
    decreases count
  {
    if count > 0 {
      StepVisitsRaw(l, i, p);
      ReadLoopCursor(l, pix, Step(l, i).next, p + 8, count - 1);
      assert p + 8 + 8 * (count - 1) == p + 8 * count;
    }
  }

  // ---------------------------------------------------------------------------
  // Properties of the reference definitions

  /** Byte t of an extraction, as the definition gives it. */
  lemma {:induction false} ExtractSpecAt(l: Layout, pix: seq<bv8>, p: nat, count: nat, t: nat)
    requires Fits(l, |pix|, p, count) && t < count
    ensures Fits(l, |pix|, p + 8 * t, 1)
    ensures ExtractSpec(l, pix, p, count)[t] == ByteAt(l, pix, p + 8 * t)
  {
    FitsWithin(l, |pix|, p, count, t, 1);
  }

  /** Extraction peels off one byte at a time. */
  lemma {:induction false} ExtractCons(l: Layout, pix: seq<bv8>, p: nat, count: nat)
    requires Fits(l, |pix|, p, count) && count > 0
    ensures Fits(l, |pix|, p, 1) && Fits(l, |pix|, p + 8, count - 1)
    ensures ExtractSpec(l, pix, p, count)
         == [ByteAt(l, pix, p)] + ExtractSpec(l, pix, p + 8, count - 1)
  {
    FitsCons(l, |pix|, p, count);
    var whole := ExtractSpec(l, pix, p, count);
    var rest := ExtractSpec(l, pix, p + 8, count - 1);
    ExtractSpecAt(l, pix, p, count, 0);
    forall t | 1 <= t < count
      ensures whole[t] == rest[t - 1]
    {
      ExtractSpecAt(l, pix, p, count, t);
      ExtractSpecAt(l, pix, p + 8, count - 1, t - 1);
      assert p + 8 + 8 * (t - 1) == p + 8 * t;
    }
  }

  /** Round trip: extracting from where a byte string was embedded returns it. */
  lemma {:induction false} ExtractEmbed(l: Layout, pix: seq<bv8>, p: nat, data: seq<bv8>)
    requires Fits(l, |pix|, p, |data|)
    ensures ExtractSpec(l, EmbedSpec(l, pix, p, data), p, |data|) == data
  {
    forall t | 0 <= t < |data|
      ensures ExtractSpec(l, EmbedSpec(l, pix, p, data), p, |data|)[t] == data[t]
    {
      EmbedByteAt(l, pix, p, data, t);
    }
  }

  /** Byte t of an embedded string decodes from its eight positions. */
  lemma {:induction false} EmbedByteAt(l: Layout, pix: seq<bv8>, p: nat, data: seq<bv8>, t: nat)
    requires Fits(l, |pix|, p, |data|)
    requires t < |data|
    ensures Fits(l, |pix|, p + 8 * t, 1)
    ensures ByteAt(l, EmbedSpec(l, pix, p, data), p + 8 * t) == data[t]
  {
    FitsWithin(l, |pix|, p, |data|, t, 1);
    var c := Gather(EmbedSpec(l, pix, p, data), Positions(l, p + 8 * t, 8));
    forall s | 0 <= s < 8
      ensures Lsb(c[s]) == Bit(data[t], s)
    {
      EmbedLsb(l, pix, p, data, p + 8 * t + s);
      assert (8 * t + s) / 8 == t && (8 * t + s) % 8 == s;
    }
    PackBitsBits(data[t], c);
  }

  /** After embedding, bit 0 of the byte at logical position L of the window
      is the payload bit stored there. */
  lemma {:induction false} EmbedLsb(l: Layout, pix: seq<bv8>, p: nat, data: seq<bv8>, L: nat)
    requires p <= L < p + 8 * |data|
    requires Raw(l, L) < |pix|
    ensures Lsb(EmbedSpec(l, pix, p, data)[Raw(l, L)]) == PayloadBit(data, L - p)
  {
    RawIsEligible(l, L);
  }

  /** Embedding touches only its window: the eligible byte at any logical
      position outside [p, p + 8|data|) is left as it was. */
  lemma {:induction false} EmbedOutsideWindow(l: Layout, pix: seq<bv8>, p: nat, data: seq<bv8>, L: nat)
    requires Raw(l, L) < |pix|
    requires L < p || p + 8 * |data| <= L
    ensures EmbedSpec(l, pix, p, data)[Raw(l, L)] == pix[Raw(l, L)]
  {
    RawIsEligible(l, L);
  }

  /** Extraction reads nothing but bit 0 of the eligible bytes in its window. */
  lemma {:induction false} ExtractFrame(l: Layout, a: seq<bv8>, b: seq<bv8>, p: nat, count: nat)
    requires Fits(l, |a|, p, count) && Fits(l, |b|, p, count)
    requires forall L :: p <= L < p + 8 * count ==> Lsb(a[Raw(l, L)]) == Lsb(b[Raw(l, L)])
    ensures ExtractSpec(l, a, p, count) == ExtractSpec(l, b, p, count)
  {
    forall t | 0 <= t < count
      ensures ExtractSpec(l, a, p, count)[t] == ExtractSpec(l, b, p, count)[t]
    {
      ExtractSpecAt(l, a, p, count, t);
      ExtractSpecAt(l, b, p, count, t);
      ByteAtFrame(l, a, b, p + 8 * t);
    }
  }

  /** A decoded byte depends on bit 0 of its eight carrier bytes only. */
  lemma {:induction false} ByteAtFrame(l: Layout, a: seq<bv8>, b: seq<bv8>, L: nat)
    requires Fits(l, |a|, L, 1) && Fits(l, |b|, L, 1)
    requires forall s :: L <= s < L + 8 ==> Lsb(a[Raw(l, s)]) == Lsb(b[Raw(l, s)])
    ensures ByteAt(l, a, L) == ByteAt(l, b, L)
  {
    var ca := Gather(a, Positions(l, L, 8));
    var cb := Gather(b, Positions(l, L, 8));
    forall s | 0 <= s < 8 ensures Lsb(ca[s]) == Lsb(cb[s]) {
      assert L <= L + s < L + 8;
    }
    PackBitsLsbOnly(ca, cb);
  }

  /** Extraction from k bytes further on is the matching slice. */
  lemma {:induction false} ExtractSlice(l: Layout, pix: seq<bv8>, p: nat, count: nat, k: nat, n: nat)
    requires Fits(l, |pix|, p, count) && k + n <= count
    ensures Fits(l, |pix|, p + 8 * k, n)
    ensures ExtractSpec(l, pix, p + 8 * k, n) == ExtractSpec(l, pix, p, count)[k .. k + n]
  {
    FitsWithin(l, |pix|, p, count, k, n);
    var part := ExtractSpec(l, pix, p + 8 * k, n);
    var whole := ExtractSpec(l, pix, p, count);
    forall t | 0 <= t < n
      ensures part[t] == whole[k + t]
    {
      ExtractSpecAt(l, pix, p + 8 * k, n, t);
      ExtractSpecAt(l, pix, p, count, k + t);
      assert p + 8 * k + 8 * t == p + 8 * (k + t);
    }
  }

  /** Extraction splits at byte boundaries. */
  lemma {:induction false} ExtractAppend(l: Layout, pix: seq<bv8>, p: nat, m: nat, n: nat)
    requires Fits(l, |pix|, p, m + n)
    ensures Fits(l, |pix|, p, m) && Fits(l, |pix|, p + 8 * m, n)
    ensures ExtractSpec(l, pix, p, m + n)
         == ExtractSpec(l, pix, p, m) + ExtractSpec(l, pix, p + 8 * m, n)
  {
    FitsWithin(l, |pix|, p, m + n, 0, m);
    FitsWithin(l, |pix|, p, m + n, m, n);
    var whole := ExtractSpec(l, pix, p, m + n);
    var parts := ExtractSpec(l, pix, p, m) + ExtractSpec(l, pix, p + 8 * m, n);
    forall t | 0 <= t < m + n
      ensures whole[t] == parts[t]
    {
      if t >= m {
        assert p + 8 * m + 8 * (t - m) == p + 8 * t;
      }
    }
  }

  // ---------------------------------------------------------------------------
  // The Gray loops

  /** writeGray's eight statements followed by readGray's eight: a byte
      stored into pix[i..i+8] decodes back to itself. */
  lemma {:induction false} GrayByteRoundTrip(pix: seq<bv8>, i: nat, b: bv8)
    requires i + 8 <= |pix|
    ensures Step(Gray, i).visited[7] < |pix|
    ensures PackBits(PutLsbs(pix, Step(Gray, i).visited, ByteBits(b))[i .. i + 8]) == b
  {
    StepVisitsRaw(Gray, i, i);
    PositionsIncrease(Gray, i, 8);
    var s := Step(Gray, i).visited;
    var c := PutLsbs(pix, s, ByteBits(b))[i .. i + 8];
    forall k | 0 <= k < 8
      ensures Lsb(c[k]) == Bit(b, k)
    {
      PutLsbsSets(pix, s, ByteBits(b), k);
    }
    PackBitsBits(b, c);
  }

  /** Whatever readGray's loop stores into the buffer before it stops is the
      stream decoded from its starting cursor: the corrupted bound changes
      how many bytes are read, never which. */
  lemma {:induction false} ReadGrayDecodes(pix: seq<bv8>, i: nat, j: uint32, sz: uint32, bufLen: nat)
    requires ReadGrayLoop(pix, i, j, sz, bufLen).Ok?
    ensures Fits(Gray, |pix|, i, |ReadGrayLoop(pix, i, j, sz, bufLen).value.bytes|)
    ensures ReadGrayLoop(pix, i, j, sz, bufLen).value.bytes
         == ExtractSpec(Gray, pix, i, |ReadGrayLoop(pix, i, j, sz, bufLen).value.bytes|)
    decreases Modulus32 - j
  {
    var g := ReadGrayLoop(pix, i, j, sz, bufLen).value;
    if sz > j {
      var rest := ReadGrayLoop(pix, i + 8, j + 1, Sub32(sz, 8), bufLen).value;
      ReadGrayDecodes(pix, i + 8, j + 1, Sub32(sz, 8), bufLen);
      assert g.bytes == [PackBits(pix[i .. i + 8])] + rest.bytes;
      FitsByLast(Gray, |pix|, i, 1);
      FitsJoin(Gray, |pix|, i, 1, |rest.bytes|);
      ExtractCons(Gray, pix, i, |g.bytes|);
      assert Gather(pix, Positions(Gray, i, 8)) == pix[i .. i + 8];
    }
  }
}

=== FILE: results.dfy ===
/** Outcomes of the codec's operations. Where the Go code panics, the model
    returns an error instead. */
module Results {

  /** `UnsupportedLayout`: the `panic("color model not supported")` of NewImage.
      `IndexOutOfRange`: Go's run-time panic on a slice index past the end of
      the pixel buffer (or of the caller's buffer). */
  datatype Error = UnsupportedLayout | IndexOutOfRange

  datatype Result<+T> = Ok(value: T) | Err(error: Error)

  /** A Go pointer that may be nil. */
  datatype Option<+T> = None | Some(value: T)
}

=== FILE: stream.dfy ===
/** What a run of Writes and Reads does to the image, stated against the
    reference definitions EmbedSpec and ExtractSpec: a writer keeps the
    message written so far in the image and the header, and a reader hands it
    back in order. */
module Stream {
  import opened Bits
  import opened Layouts
  import opened Results
  import opened Header
  import opened Payload
  import opened Stego

  /** A Write from a writer at logical position p (past the header) fails
      exactly when the accepted bytes do not fit; otherwise it embeds them
      from p, moves the cursor past them and, if it accepted any, rewrites the
      header with the new length. */
  lemma {:induction false} WriteMeetsSpec(img: Image, w: ImageWriter, p: nat, buf: seq<bv8>)
    requires Normalize(img.layout, w.index) == Raw(img.layout, p)
    requires HeaderBits <= p
    ensures Write(img, w, buf).Ok? <==> Fits(img.layout, |img.pix|, p, Accepted(img, buf).0)
    ensures Write(img, w, buf).Ok? ==>
      Normalize(img.layout, Write(img, w, buf).value.writer.index)
        == Raw(img.layout, p + 8 * Accepted(img, buf).0)
    ensures Write(img, w, buf).Ok? && Accepted(img, buf).0 > 0 ==>
      && HeaderSpan(img.layout) <= |img.pix|
      && Write(img, w, buf).value.img.pix
         == WriteSize(img.layout, EmbedSpec(img.layout, img.pix, p, buf[..Accepted(img, buf).0]),
                      Write(img, w, buf).value.img.stegosize).value
  {
    var l, n := img.layout, Accepted(img, buf).0;
    WriteLoopOk(l, img.pix, w.index, p, buf[..n]);
    if Fits(l, |img.pix|, p, n) {
      WriteLoopMeetsSpec(l, img.pix, w.index, p, buf[..n]);
      WriteLoopCursor(l, img.pix, w.index, p, buf[..n]);
      if n > 0 {
        HeaderSpanIsRaw(l);
        RawIsMonotone(l, HeaderBits, p);
        assert Raw(l, p) < |img.pix|;
      }
    }
  }

  /** A stream read from a reader at logical position p fails exactly when
      the requested bytes do not fit; otherwise it returns ExtractSpec at p in
      the front of the buffer and moves the cursor past them. */
  lemma {:induction false} ReadMeetsSpec(img: Image, r: ImageReader, p: nat, buf: seq<bv8>)
    requires Normalize(img.layout, r.index) == Raw(img.layout, p)
    ensures ReadStream(img, r, buf).Ok? <==> Fits(img.layout, |img.pix|, p, Requested(img, r, buf).0)
    ensures ReadStream(img, r, buf).Ok? ==>
      && Fits(img.layout, |img.pix|, p, ReadStream(img, r, buf).value.n)
      && ReadStream(img, r, buf).value.buf[..ReadStream(img, r, buf).value.n]
         == ExtractSpec(img.layout, img.pix, p, ReadStream(img, r, buf).value.n)
      && Normalize(img.layout, ReadStream(img, r, buf).value.reader.index)
         == Raw(img.layout, p + 8 * ReadStream(img, r, buf).value.n)
  {
    var l, n := img.layout, Requested(img, r, buf).0;
    ReadLoopOk(l, img.pix, r.index, p, n);
    if Fits(l, |img.pix|, p, n) {
      ReadLoopMeetsSpec(l, img.pix, r.index, p, n);
      ReadLoopCursor(l, img.pix, r.index, p, n);
      var x := ReadLoop(l, img.pix, r.index, n).value;
      assert (x.bytes + buf[n..])[..n] == x.bytes;
    }
  }

  /** Write keeps the message length within the capacity and adds the count
      it returns. */
  lemma {:induction false} WriteKeepsBound(img: Image, w: ImageWriter, buf: seq<bv8>)
    requires img.stegosize <= img.entropy
    requires Write(img, w, buf).Ok?
    ensures Write(img, w, buf).value.img.stegosize == img.stegosize + Write(img, w, buf).value.n
    ensures Write(img, w, buf).value.img.stegosize <= img.entropy
  {
    assert Sub32(img.entropy, img.stegosize) == img.entropy - img.stegosize;
  }

  /** A Write changes nothing but bit 0, never an alpha byte, and among the
      eligible bytes past the header only those of the logical window the
      accepted bytes go to. */
  lemma {:induction false} WriteFootprint(img: Image, w: ImageWriter, p: nat, buf: seq<bv8>)
    requires Normalize(img.layout, w.index) == Raw(img.layout, p)
    requires HeaderBits <= p
    requires Write(img, w, buf).Ok?
    ensures forall j :: 0 <= j < |img.pix| ==>
      (Write(img, w, buf).value.img.pix[j] & 0xFE) == (img.pix[j] & 0xFE)
    ensures forall j :: 0 <= j < |img.pix| && !Eligible(img.layout, j) ==>
      Write(img, w, buf).value.img.pix[j] == img.pix[j]
    ensures forall j :: 0 <= j < |img.pix| && Eligible(img.layout, j) && HeaderBits <= Logical(img.layout, j)
                        && !InWindow(img.layout, j, p, 8 * Accepted(img, buf).0) ==>
      Write(img, w, buf).value.img.pix[j] == img.pix[j]
  {
    WriteMeetsSpec(img, w, p, buf);
    var out := Write(img, w, buf).value;
    if out.n > 0 {
      forall j | 0 <= j < |img.pix|
        ensures (out.img.pix[j] & 0xFE) == (img.pix[j] & 0xFE)
        ensures !Eligible(img.layout, j) ==> out.img.pix[j] == img.pix[j]
        ensures (Eligible(img.layout, j) && HeaderBits <= Logical(img.layout, j)
                 && !InWindow(img.layout, j, p, 8 * out.n)) ==> out.img.pix[j] == img.pix[j]
      {
        WriteFootprintAt(img.layout, img.pix, p, buf[..out.n], out.img.stegosize, j);
      }
    }
  }

  lemma {:induction false} WriteFootprintAt(l: Layout, pix: seq<bv8>, p: nat, chunk: seq<bv8>, size: uint32, j: nat)
    requires HeaderSpan(l) <= |pix| && j < |pix|
    ensures (WriteSize(l, EmbedSpec(l, pix, p, chunk), size).value[j] & 0xFE) == (pix[j] & 0xFE)
    ensures !Eligible(l, j) ==> WriteSize(l, EmbedSpec(l, pix, p, chunk), size).value[j] == pix[j]
    ensures Eligible(l, j) && HeaderBits <= Logical(l, j) && !InWindow(l, j, p, 8 * |chunk|) ==>
      WriteSize(l, EmbedSpec(l, pix, p, chunk), size).value[j] == pix[j]
  {
    EmbedSpecAt(l, pix, p, chunk, j);
    HeaderFootprint(l, EmbedSpec(l, pix, p, chunk), size);
  }

  // ---------------------------------------------------------------------------
  // Writing a stream

  /** The state after Writer() and a run of successful Writes that together
      accepted `written`: stegosize counts it and stays within the capacity,
      the cursor stands just past it, it fits and is embedded from the first
      logical position after the header, and once anything has been written
      the header holds its length. */
  predicate Holds(img: Image, w: ImageWriter, written: seq<bv8>)
  {
    && img.stegosize == |written| <= img.entropy
    && Normalize(img.layout, w.index) == Raw(img.layout, HeaderBits + 8 * |written|)
    && Fits(img.layout, |img.pix|, HeaderBits, |written|)
    && ExtractSpec(img.layout, img.pix, HeaderBits, |written|) == written
    && (|written| > 0 ==> ReadSize(img.layout, img.pix) == Ok(img.stegosize))
  }

  /** Writer() starts an empty stream. */
  lemma {:induction false} WriterStarts(img: Image)
    ensures Holds(Writer(img).0, Writer(img).1, [])
  {
  }

  /** A successful Write on a stream accepts min(entropy - stegosize,
      len(buf)) bytes. */
  lemma {:induction false} WriteCount(img: Image, w: ImageWriter, written: seq<bv8>, buf: seq<bv8>)
    requires Holds(img, w, written)
    requires Write(img, w, buf).Ok?
    requires |buf| < Modulus32
    ensures Write(img, w, buf).value.n == (if img.entropy - |written| <= |buf| then img.entropy - |written| else |buf|)
  {
    assert Sub32(img.entropy, img.stegosize) == img.entropy - |written|;
  }

  /** Every successful Write extends the stream by the bytes it accepted. */
  lemma {:induction false} WritePreserves(img: Image, w: ImageWriter, written: seq<bv8>, buf: seq<bv8>)
    requires Holds(img, w, written)
    requires Write(img, w, buf).Ok?
    ensures Holds(Write(img, w, buf).value.img, Write(img, w, buf).value.writer,
                  written + buf[..Write(img, w, buf).value.n])
  {
    var p := HeaderBits + 8 * |written|;
    WriteMeetsSpec(img, w, p, buf);
    var out := Write(img, w, buf).value;
    assert Sub32(img.entropy, img.stegosize) == img.entropy - |written|;
    if out.n == 0 {
      assert written + buf[..out.n] == written;
    } else {
      HoldsExtend(img.layout, img.pix, written, buf[..out.n], out.img, out.writer);
    }
  }

  /** The image and writer a non-empty Write leaves behind, described by
      WriteMeetsSpec and StreamExtract, hold the stream extended by the
      accepted bytes. */
  lemma {:induction false} HoldsExtend(l: Layout, pix: seq<bv8>, written: seq<bv8>, chunk: seq<bv8>,
                                       img2: Image, w2: ImageWriter)
    requires Fits(l, |pix|, HeaderBits, |written|) && Fits(l, |pix|, HeaderBits + 8 * |written|, |chunk|)
    requires ExtractSpec(l, pix, HeaderBits, |written|) == written
    requires HeaderSpan(l) <= |pix|
    requires img2.layout == l
    requires img2.stegosize == |written| + |chunk| <= img2.entropy
    requires Normalize(l, w2.index) == Raw(l, HeaderBits + 8 * |written| + 8 * |chunk|)
    requires img2.pix == WriteSize(l, EmbedSpec(l, pix, HeaderBits + 8 * |written|, chunk), img2.stegosize).value
    requires |chunk| > 0 && ReadSize(l, img2.pix) == Ok(img2.stegosize)
    ensures Holds(img2, w2, written + chunk)
  {
    var m, n := |written|, |chunk|;
    StreamExtract(l, pix, m, chunk, img2.stegosize, img2.pix);
    assert |written + chunk| == m + n;
    assert HeaderBits + 8 * m + 8 * n == HeaderBits + 8 * |written + chunk|;
  }

  /** After a payload write at the end of a stream and a header rewrite, the
      stream reads back as before with the new bytes appended. */
  lemma {:induction false} StreamExtract(l: Layout, pix: seq<bv8>, m: nat, chunk: seq<bv8>, size: uint32,
                                         h: seq<bv8>)
    requires |chunk| > 0 && Fits(l, |pix|, HeaderBits, m) && Fits(l, |pix|, HeaderBits + 8 * m, |chunk|)
    requires HeaderSpan(l) <= |pix|
    requires h == WriteSize(l, EmbedSpec(l, pix, HeaderBits + 8 * m, chunk), size).value
    ensures |h| == |pix| && Fits(l, |pix|, HeaderBits, m + |chunk|)
    ensures ExtractSpec(l, h, HeaderBits, m + |chunk|) == ExtractSpec(l, pix, HeaderBits, m) + chunk
  {
    var n, p := |chunk|, HeaderBits + 8 * m;
    FitsJoin(l, |pix|, HeaderBits, m, n);
    var e := EmbedSpec(l, pix, p, chunk);
    ExtractAppend(l, h, HeaderBits, m, n);
    PrefixKept(l, pix, m, chunk, size);
    ExtractFrame(l, h, pix, HeaderBits, m);
    ChunkKept(l, pix, m, chunk, size);
    ExtractFrame(l, h, e, p, n);
    ExtractEmbed(l, pix, p, chunk);
  }

  /** The stream written before is untouched by the next write. */
  lemma {:induction false} PrefixKept(l: Layout, pix: seq<bv8>, m: nat, chunk: seq<bv8>, size: uint32)
    requires HeaderSpan(l) <= |pix|
    requires Fits(l, |pix|, HeaderBits, m)
    ensures forall L :: HeaderBits <= L < HeaderBits + 8 * m ==>
      Lsb(WriteSize(l, EmbedSpec(l, pix, HeaderBits + 8 * m, chunk), size).value[Raw(l, L)]) == Lsb(pix[Raw(l, L)])
  {
    var e := EmbedSpec(l, pix, HeaderBits + 8 * m, chunk);
    forall L | HeaderBits <= L < HeaderBits + 8 * m
      ensures Lsb(WriteSize(l, e, size).value[Raw(l, L)]) == Lsb(pix[Raw(l, L)])
    {
      HeaderKeepsPayload(l, e, size, L);
      EmbedOutsideWindow(l, pix, HeaderBits + 8 * m, chunk, L);
    }
  }

  /** The header rewrite leaves the new bytes alone. */
  lemma {:induction false} ChunkKept(l: Layout, pix: seq<bv8>, m: nat, chunk: seq<bv8>, size: uint32)
    requires HeaderSpan(l) <= |pix|
    requires Fits(l, |pix|, HeaderBits + 8 * m, |chunk|)
    ensures forall L :: HeaderBits + 8 * m <= L < HeaderBits + 8 * m + 8 * |chunk| ==>
      var e := EmbedSpec(l, pix, HeaderBits + 8 * m, chunk);
      Lsb(WriteSize(l, e, size).value[Raw(l, L)]) == Lsb(e[Raw(l, L)])
  {
    var e := EmbedSpec(l, pix, HeaderBits + 8 * m, chunk);
    forall L | HeaderBits + 8 * m <= L < HeaderBits + 8 * m + 8 * |chunk|
      ensures Lsb(WriteSize(l, e, size).value[Raw(l, L)]) == Lsb(e[Raw(l, L)])
    {
      HeaderKeepsPayload(l, e, size, L);
    }
  }

  // ---------------------------------------------------------------------------
  // Reading it back

  /** A reader over a stream `written` that has returned its first k bytes. */
  predicate Reading(img: Image, r: ImageReader, written: seq<bv8>, k: nat)
  {
    && img.stegosize == |written|
    && Fits(img.layout, |img.pix|, HeaderBits, |written|)
    && ExtractSpec(img.layout, img.pix, HeaderBits, |written|) == written
    && r.bytesread == k <= |written|
    && Normalize(img.layout, r.index) == Raw(img.layout, HeaderBits + 8 * k)
  }

  /** Reader() on a non-empty stream learns its length from the header and
      starts at its first byte. */
  lemma {:induction false} ReaderStarts(img: Image, w: ImageWriter, written: seq<bv8>)
    requires Holds(img, w, written) && |written| > 0
    ensures Reader(img).Ok?
    ensures Reading(Reader(img).value.0, Reader(img).value.1, written, 0)
  {
    HeaderSpanIsRaw(img.layout);
    assert Raw(img.layout, HeaderBits) < |img.pix|;
  }

  /** Each stream read on a stream succeeds and returns min(stegosize -
      bytesread, len(buf)) bytes, with EOF exactly when that is all that is
      left. */
  lemma {:induction false} ReadCount(img: Image, r: ImageReader, written: seq<bv8>, k: nat, buf: seq<bv8>)
    requires Reading(img, r, written, k)
    ensures ReadStream(img, r, buf).Ok?
    ensures ReadStream(img, r, buf).value.n <= |written| - k
    ensures |buf| < Modulus32 ==>
      ReadStream(img, r, buf).value.n == (if |written| - k <= |buf| then |written| - k else |buf|)
    ensures |buf| < Modulus32 ==> (ReadStream(img, r, buf).value.eof <==> |written| - k <= |buf|)
  {
    assert Sub32(img.stegosize, r.bytesread) == |written| - k;
    var n := Requested(img, r, buf).0;
    FitsWithin(img.layout, |img.pix|, HeaderBits, |written|, k, n);
    ReadMeetsSpec(img, r, HeaderBits + 8 * k, buf);
  }

  /** The bytes each stream read returns are the next ones of the stream, and
      the reader moves past them. */
  lemma {:induction false} ReadNext(img: Image, r: ImageReader, written: seq<bv8>, k: nat, buf: seq<bv8>)
    requires Reading(img, r, written, k)
    ensures ReadStream(img, r, buf).Ok?
    ensures ReadStream(img, r, buf).value.buf[..ReadStream(img, r, buf).value.n]
         == written[k .. k + ReadStream(img, r, buf).value.n]
    ensures Reading(img, ReadStream(img, r, buf).value.reader, written, k + ReadStream(img, r, buf).value.n)
  {
    var l, p := img.layout, HeaderBits + 8 * k;
    ReadCount(img, r, written, k, buf);
    var n := Requested(img, r, buf).0;
    FitsWithin(l, |img.pix|, HeaderBits, |written|, k, n);
    ReadMeetsSpec(img, r, p, buf);
    ExtractSlice(l, img.pix, HeaderBits, |written|, k, n);
    assert p + 8 * n == HeaderBits + 8 * (k + n);
  }

  /** Round trip: after Writer() and a run of successful Writes that accepted
      at least one byte, a fresh
      Reader and one stream read into a buffer at least as long return
      exactly what the writes accepted, with EOF. On RGBA that read is
      imageReader.Read itself. */
  lemma {:induction false} RoundTrip(img: Image, w: ImageWriter, written: seq<bv8>, buf: seq<bv8>)
    requires Holds(img, w, written) && |written| > 0
    requires |written| <= |buf| < Modulus32
    ensures Reader(img).Ok?
    ensures var rd := Reader(img).value;
      && ReadStream(rd.0, rd.1, buf).Ok?
      && ReadStream(rd.0, rd.1, buf).value.n == |written|
      && ReadStream(rd.0, rd.1, buf).value.eof
      && ReadStream(rd.0, rd.1, buf).value.buf[..|written|] == written
      && (img.layout == RGBA ==> Read(rd.0, rd.1, buf) == ReadStream(rd.0, rd.1, buf))
  {
    ReaderStarts(img, w, written);
    var rd := Reader(img).value;
    ReadCount(rd.0, rd.1, written, 0, buf);
    ReadNext(rd.0, rd.1, written, 0, buf);
  }
}
